=== FILE: README.md ===
# Campus marketplace: chat sync, feed, listings and sign-in, in Dafny

This project models the client-side core of a campus marketplace web app. Students sign in
with a campus address and a one-time code. They list items, browse a paged marketplace
feed, and chat with each other about a listing. The model is pure: every screen handler is
a function from the state it reads, plus the answers of the backend calls it makes, to the
state it leaves and the requests it issues. The backend's answers are parameters.

Modules, one per file:

- `Common`: `Option`, `Result`, `Outcome`, and `Filter`, the model of
  `Array.prototype.filter` with its laws (multiplicities, concatenation, idempotence).
- `Text`: the string tests the source uses (`startsWith`, `endsWith`, `indexOf`,
  `includes`, `split(c).pop()` and `trim() === ""`).
- `Messages`: the `messages` row, the conversation key `(listing, partner)`, the two
  per-participant deletion-flag rules, and the store's flag and read updates on one row.
- `ReplyCodec`: the reply annotation `:::REPLY<json>:::<typed text>`. It covers decoding,
  framing, the 60-character quote preview and building the annotation.
- `JsonText`: `JSON.stringify` of the annotation object as the send handler writes it,
  and a colon-safe variant (see Findings).
- `Inbox`: the conversation list. It folds the user's newest-first message log into one
  entry per conversation. The fold applies the deletion flags and the local deletion
  markers, and counts unread rows. A declarative reference (`Summaries`) is proved equal
  to the loop (`Aggregate`).
- `ReadTracking`: opening a conversation. The badge is cleared, the thread is fetched and
  filtered, and the unread rows are marked read in one batch.
- `LiveFeed`: the open thread under realtime inserts, optimistic sends and rollback.
- `ConversationDelete`: the two-sided soft delete of a conversation, the local marker,
  and the hard delete of one message.
- `Attachments`: the image/document gate, the storage path and the announcing row.
- `Marketplace`: the feed query (range, filters, ordering) and load-more paging.
- `ItemStore`: the listings hook (`fetchItems`, `fetchUserItems`, `createItem`,
  `updateItem`, `deleteItem`).
- `CampusAuth`: the sign-in and sign-up forms. It covers the domain gate, the code request,
  code verification and the red/green styling of the status line.

Two places where the code is subtler than the natural reading of the rule it implements:

- Inbox visibility. The natural reading of the rule shows a row to a user who is its
  sender and has not deleted it, or its receiver and has not deleted it. The code checks
  `deleted_by_sender` when the user sent the row and `deleted_by_receiver` otherwise.
  The two differ only for a row a user sent to themself. `Messages.FlagRulesAgree`
  proves they agree on every other row.
- Conversation order. The list is meant to read newest first, as the query's descending
  `created_at` order (`src/pages/Chat.jsx:187`) suggests. The code relies on the insertion order of `Object.values` over a newest-first log. `Inbox.SummariesNewestFirst`
  proves that this order is newest first whenever the log is.

One observation that is not a defect: the sign-in form's "Account not found" answer does
not start with "Error", so it is shown in the success colour (`CampusAuth.LoginStatusStyle`).

## Model

| member | source | states |
|---|---|---|
| Common.Filter | src/pages/Chat.jsx:309-313 | The result keeps exactly the elements that pass the test: each kept element is from the input and passes, each passing input element is kept, and the result is never longer than the input. |
| Common.FilterCount | src/pages/Chat.jsx:309-313 | Every passing element is kept exactly as many times as the input holds it; every failing one is dropped. |
| Common.FilterConcat | src/pages/Chat.jsx:468 | Filtering a concatenation filters each part and keeps them in order. |
| Common.FilterKeepsAll | src/pages/Chat.jsx:468 | A list whose every element passes is returned unchanged. |
| Common.FilterDropsOne | src/pages/Chat.jsx:468 | Filtering out the single failing element of a list leaves the elements before and after it, joined in order. |
| Common.FilterIdempotent | src/pages/Chat.jsx:484 | Filtering twice with the same test equals filtering once. |
| ReplyCodec.Decode | src/pages/Chat.jsx:49-64 | Decoding is total. A body without the `:::REPLY` tag, with no closing delimiter, or with JSON the parser rejects, decodes to a `null` reply and the body unchanged. Whenever the body is changed, it was a genuine frame (tag, JSON, delimiter, content) whose JSON part the parser accepted, and the reply is exactly the parsed value, whatever kind of value it is. |
| ReplyCodec.DecodeFrame | src/pages/Chat.jsx:49-64 | A well-formed frame whose JSON part parses decodes to exactly the parsed value (an annotation, `null` or any other value) and exactly the framed text. |
| ReplyCodec.FrameEnd | src/pages/Chat.jsx:50-56 | In a well-formed frame the delimiter search from just after the tag stops right after the JSON part, so the two slices taken are the JSON and the text. |
| ReplyCodec.DecodeFrameRejected | src/pages/Chat.jsx:53-63 | A well-formed frame whose JSON part the parser rejects is shown whole, with a `null` reply. |
| ReplyCodec.FrameShowsQuoteIffTruthy | src/pages/Chat.jsx:788-809 | A parsed frame always shows only the framed text; the quote bubble appears exactly when the parsed value is truthy. |
| ReplyCodec.NullReplyShowsPlainText | src/pages/Chat.jsx:788-809 | The body `:::REPLYnull:::` followed by a text shows just that text, with a `null` reply and no quote bubble. |
| ReplyCodec.EncodeReply | src/pages/Chat.jsx:437 | The framed body starts with the tag, ends with the typed text, and is exactly as long as its four parts. |
| ReplyCodec.ReplyRoundTrip | src/pages/Chat.jsx:426-437 | Decoding an encoded reply gives back the annotation and the typed text, provided the JSON is delimiter-free even across its end and the parser reads it back as that annotation. |
| ReplyCodec.DelimiterInsideJsonFailsOpen | src/pages/Chat.jsx:51-63 | When the JSON part contains `:::`, the search stops inside it, the parser sees a proper prefix and rejects it, and the whole body is shown raw with a `null` reply. |
| ReplyCodec.Preview | src/pages/Chat.jsx:432-434 | A quote of at most 60 characters is kept whole. A longer one keeps its first 60 characters followed by "...". |
| ReplyCodec.ReplyMetaFor | src/pages/Chat.jsx:425-436 | The annotation carries the original's id, "You" for one's own message, else the partner's name or "User", the preview of the original's decoded content, and whether it has a non-empty image URL. |
| ReplyCodec.QuoteSkipsNestedAnnotation | src/pages/Chat.jsx:424-425 | Replying to a reply quotes only the text its sender typed, never its annotation. |
| JsonText.EscapeString | src/pages/Chat.jsx:426-436 | String escaping never introduces a colon. In colon-safe mode the escaped text contains no colon at all. |
| JsonText.Decimal | src/pages/Chat.jsx:427 | A numeric id is written as a non-empty run of decimal digits. |
| JsonText.ColonSafeStringifyIsDelimiterFree | src/pages/Chat.jsx:426-437 | The colon-safe annotation JSON never contains the frame delimiter, not even across its end into the delimiter that follows it. |
| JsonText.StringifyIsDelimiterFree | src/pages/Chat.jsx:426-437 | As written, the annotation JSON holds no `:::`, not even across its end, whenever none of its string values does. With `QuotedDelimiterSurvives` this makes the quoted text's `:::` the deciding case. |
| JsonText.NoTripleIsDelimiterFree | src/pages/Chat.jsx:51 | A string is free of the delimiter exactly when it has no three colons in a row. |
| JsonText.ConcatNoTriple | src/pages/Chat.jsx:426-437 | Joining two strings without three colons in a row creates none when a non-colon stands at the seam. |
| JsonText.EscapeHead | src/pages/Chat.jsx:426-436 | An escaped string starts with one or two colons only when the original does. |
| JsonText.EscapeNoTriple | src/pages/Chat.jsx:426-436 | Escaping as `JSON.stringify` does creates no run of three colons. |
| JsonText.QuoteNoTriple | src/pages/Chat.jsx:426-436 | A quoted string value has no run of three colons when its text has none. |
| JsonText.MemberNoTriple | src/pages/Chat.jsx:426-436 | A member `"key":value` has no run of three colons when its value has none and does not start with a colon. |
| JsonText.EscapeConcat | src/pages/Chat.jsx:426-436 | Escaping a concatenation is the concatenation of the escapes. |
| JsonText.EscapeKeepsDelimiter | src/pages/Chat.jsx:432-434 | Escaping as `JSON.stringify` does keeps any `:::` of the text in its output. |
| JsonText.QuotedDelimiterSurvives | src/pages/Chat.jsx:426-436 | A quote containing `:::` puts `:::` into the annotation JSON as the send handler writes it. |
| JsonText.QuoteKeepsDelimiter | src/pages/Chat.jsx:432-434 | A quoted string value keeps any `:::` of its text. |
| JsonText.QuotedDelimiterFailsOpen | src/pages/Chat.jsx:426-437 | As written, replying to a message whose quote contains `:::` yields a body that decodes to no reply, shown raw. |
| JsonText.QuotingDelimiterBreaksReply | src/pages/Chat.jsx:423-437 | Concrete case: the reply "hi" to the partner's message "a:::b" does not display as "hi". |
| JsonText.ColonSafeReplyRoundTrip | src/pages/Chat.jsx:423-437 | With the colon-safe serialiser, every reply whose annotation the parser reads back displays that annotation and exactly the typed text, whatever the quote contains. |
| Messages.FlagRulesAgree | src/pages/Chat.jsx:196-200 | For rows the user takes part in, the inbox's flag rule and the open thread's flag rule agree. For a row between two different users, both equal the per-participant rule. |
| Messages.OtherSideFlagIsIrrelevant | src/pages/Chat.jsx:196-200 | Setting the other participant's deletion flag never changes whether a row is visible to the user. |
| Messages.MarkRead | src/pages/Chat.jsx:322-325 | The row becomes read exactly when it was read already or its id is in the batch. Nothing else about it changes. |
| Messages.DeleteSent | src/pages/Chat.jsx:536-545 | `deleted_by_sender` is set exactly on rows of the listing sent by the user to the partner. Nothing else changes. |
| Messages.DeleteReceived | src/pages/Chat.jsx:552-561 | `deleted_by_receiver` is set exactly on rows of the listing sent by the partner to the user. Nothing else changes. |
| Messages.Ids | src/pages/Chat.jsx:317-319 | The id list has one entry per message, position for position. |
| Inbox.Firsts | src/pages/Chat.jsx:215-228 | The positions that open a conversation, strictly increasing, each the first counting row of its conversation. |
| Inbox.SeenIffCounting | src/pages/Chat.jsx:194-215 | A conversation has been met before position n exactly when some row before n counts for the viewer and belongs to it. |
| Inbox.SeenHasFirst | src/pages/Chat.jsx:215-228 | A conversation met before n was opened by a first row before n. |
| Inbox.FirstsComplete | src/pages/Chat.jsx:215-228 | Every first row of a conversation is an opening position. |
| Inbox.SummariesDistinct | src/pages/Chat.jsx:203-234 | No conversation is listed twice. |
| Inbox.ListedIffCounting | src/pages/Chat.jsx:195-234 | A conversation is listed exactly when at least one of its rows passes the viewer's deletion flag and is newer than the local marker. |
| Inbox.UnseenHasNoUnread | src/pages/Chat.jsx:229-232 | A conversation with no counting row has no unread count. |
| Inbox.UnreadPositiveIff | src/pages/Chat.jsx:229-232 | The unread count is positive exactly when a counting row of the conversation was sent by the partner and is unread. |
| Inbox.BadgeIffUnreadRow | src/pages/Chat.jsx:226-232 | A listed entry shows a badge exactly when its conversation holds a counting unread row from the partner. |
| Inbox.SummaryIsLatest | src/pages/Chat.jsx:187-228 | On a newest-first log, each entry's time is at least that of every counting row of its conversation. |
| Inbox.SummariesNewestFirst | src/pages/Chat.jsx:187-234 | On a newest-first log, the list comes out newest conversation first. |
| Inbox.SeenAgree | src/pages/Chat.jsx:194-215 | Logs that agree on which rows count, and on their keys, meet conversations at the same positions. |
| Inbox.FirstsAgree | src/pages/Chat.jsx:215-228 | Logs with the same openings have the same opening positions. |
| Inbox.SummariesAgreeButBadges | src/pages/Chat.jsx:215-234 | Logs with the same openings list the same entries in the same order, differing only in the unread counts. |
| Inbox.UnreadAgree | src/pages/Chat.jsx:229-232 | Logs that agree row by row on what counts towards a badge give it the same count. |
| Inbox.UnreadNone | src/pages/Chat.jsx:229-232 | With no row counting towards a badge, the count is zero. |
| Inbox.SkipStep | src/pages/Chat.jsx:196-213 | Skipping a flagged or suppressed row keeps the loop invariant. |
| Inbox.NewKeyStep | src/pages/Chat.jsx:215-228 | Opening a dictionary entry for a new conversation keeps the loop invariant. |
| Inbox.OldKeyStep | src/pages/Chat.jsx:229-232 | Counting a row into an existing entry keeps the loop invariant. |
| Inbox.GroupedComplete | src/pages/Chat.jsx:234 | After the last row, the dictionary's values in insertion order are the reference list. |
| Inbox.Aggregate | src/pages/Chat.jsx:194-234 | The single pass over the log, with a dictionary and its insertion order, computes exactly the reference list `Summaries`. |
| Inbox.FetchConversations | src/pages/Chat.jsx:170-235 | An error answer leaves the list shown unchanged; a log replaces it with exactly the reference list `Summaries` of that log. |
| ReadTracking.ClearBadge | src/pages/Chat.jsx:284-294 | Only the opened conversation's badge changes, and it becomes zero. Every other entry and field is untouched and the length is kept. |
| ReadTracking.ClearBadgeIdempotent | src/pages/Chat.jsx:330-340 | Clearing the badge a second time, after a successful mark-read, changes nothing. |
| ReadTracking.ThreadOf | src/pages/Chat.jsx:297-304 | The thread holds exactly the store's rows of the listing exchanged between the user and the partner. |
| ReadTracking.OpenVisible | src/pages/Chat.jsx:309-313 | The shown thread keeps exactly the rows the user has not deleted on their side, each as many times as the thread holds it. |
| ReadTracking.OpenVisibleKeepsOrder | src/pages/Chat.jsx:309-313 | The filter works row by row in thread order: a row between two stretches is kept in its place exactly when it is visible. |
| ReadTracking.OpenVisibleShowsWholeThread | src/pages/Chat.jsx:309-313 | A thread none of whose rows the user deleted is shown whole, in order. |
| ReadTracking.UnreadIds | src/pages/Chat.jsx:317-319 | The batch holds exactly the ids of shown rows sent to the user and still unread. |
| ReadTracking.OpenConversation | src/pages/Chat.jsx:284-345 | Opening always clears the badge. A failed fetch keeps the rows, and missing data shows none. Otherwise the visible rows are shown, and a mark-read is issued exactly when the batch is non-empty. |
| ReadTracking.AfterMarkRead | src/pages/Chat.jsx:326-343 | A successful batch clears the badge again and notifies the navigation bar. A failed one changes nothing. |
| ReadTracking.MarkRows | src/pages/Chat.jsx:322-325 | The batch update applied to every row of the log, joins untouched. |
| ReadTracking.MarkedRowInBatch | src/pages/Chat.jsx:309-319 | Every shown unread row from the partner has its id in the batch. |
| ReadTracking.BatchPicksMarkedRows | src/pages/Chat.jsx:317-325 | With unique ids, a row is hit by the batch exactly when it is a shown unread row from the partner. |
| ReadTracking.BadgeRowIsMarked | src/pages/Chat.jsx:229-232 | Every row that counts towards the badge is one the batch marks. |
| ReadTracking.MarkedRowIsInConversation | src/pages/Chat.jsx:299-304 | Every row the batch marks belongs to the opened conversation. |
| ReadTracking.MarkRowsKeepsOpenings | src/pages/Chat.jsx:322-325 | Marking rows read changes no opening and no preview of the conversation list. |
| ReadTracking.BatchClearsBadge | src/pages/Chat.jsx:317-325 | After the batch, the recomputed badge of the opened conversation is zero. |
| ReadTracking.BatchKeepsOtherBadges | src/pages/Chat.jsx:317-325 | The batch leaves every other conversation's recomputed badge as it was. |
| ReadTracking.MarkReadMatchesRecount | src/pages/Chat.jsx:322-340 | Recomputing the list after the batch gives the old list with only the opened conversation's badge cleared. The local update agrees with the store. |
| LiveFeed.FindPending | src/pages/Chat.jsx:377-380 | Finds the first optimistic entry with the given body, or reports that there is none. |
| LiveFeed.Reduce | src/pages/Chat.jsx:370-389 | Afterwards the id is present. A known id changes nothing. Otherwise the row is either appended, or, when it is the user's own row, it takes the place of exactly one optimistic entry with the same body, the first such entry in the list, and every other slot is unchanged. |
| LiveFeed.OnInsert | src/pages/Chat.jsx:361-401 | Inserts outside the open pair are ignored. Others go through the reducer, and a single-row mark-read is issued exactly for rows sent to the user. |
| LiveFeed.OnInsertIdempotent | src/pages/Chat.jsx:370-372 | Delivering the same insert twice has the effect of delivering it once. |
| LiveFeed.ReduceKeepsIdsDistinct | src/pages/Chat.jsx:370-389 | Inserts keep the ids of the list distinct. |
| LiveFeed.ConfirmReplacesPending | src/pages/Chat.jsx:374-385 | The store's echo of a sent message replaces its optimistic entry in place, however many rows arrived after it. |
| LiveFeed.PartnerRowAppended | src/pages/Chat.jsx:388 | A new row from the partner is appended. |
| LiveFeed.OutgoingBody | src/pages/Chat.jsx:420-438 | Without a reply target the body is the draft. With one, it starts with the tag, ends with the draft, and what lies between the tag and the delimiter before the draft is `JSON.stringify` of the annotation for the target. |
| LiveFeed.OutgoingBodyFixed | src/pages/Chat.jsx:420-438 | The corrected body: the same frame, with the annotation written by the colon-safe serialiser. |
| LiveFeed.PendingRow | src/pages/Chat.jsx:440-448 | The optimistic entry carries a temporary id from the clock, the body, and the open pair. |
| LiveFeed.Send | src/pages/Chat.jsx:416-463 | An insert is issued exactly when the draft is not blank and a conversation is open, and it carries the body built as the handler builds it. The composer is then reset and the optimistic entry appended. Otherwise nothing changes. |
| LiveFeed.Rollback | src/pages/Chat.jsx:467-469 | No entry with the optimistic id remains, and every other entry is kept. |
| LiveFeed.AfterSend | src/pages/Chat.jsx:455-473 | Only an error answer rolls back. A thrown error leaves the list as it is. |
| LiveFeed.RollbackKeepsOthers | src/pages/Chat.jsx:467-469 | A list without the optimistic id is left unchanged by the rollback. |
| LiveFeed.RollbackRemovesOnlyPending | src/pages/Chat.jsx:467-469 | The rollback removes exactly the optimistic entry and keeps the rows before and after it in order. |
| LiveFeed.RejectedSendRestoresList | src/pages/Chat.jsx:440-469 | Sending and having the insert rejected restores the rows shown before the send. |
| LiveFeed.SentReplyDisplaysAsTyped | src/pages/Chat.jsx:423-450 | A reply sent as written displays its annotation and exactly what was typed whenever none of the annotation's strings (quoted text, name, id) holds `:::` and the parser reads the annotation back. |
| LiveFeed.SentReplyQuotingDelimiterShowsRaw | src/pages/Chat.jsx:423-450 | A reply sent as written whose quoted preview contains `:::` displays its whole raw body with no quote, for any parser that rejects every proper prefix of the serialised annotation. |
| LiveFeed.FixedReplyDisplaysAsTyped | src/pages/Chat.jsx:423-450 | A reply sent with the corrected body displays its annotation and exactly what was typed, whatever the quote contains, whenever the parser reads the annotation back. |
| ConversationDelete.RemoveConversation | src/pages/Chat.jsx:523-531 | Exactly the entries of other conversations remain, each as many times as before. |
| ConversationDelete.RemoveConversationExact | src/pages/Chat.jsx:523-531 | Removing a conversation listed once leaves the entries before and after it, joined in order. |
| ConversationDelete.ConfirmDelete | src/pages/Chat.jsx:509-531 | With a conversation open, the marker is set to now, the thread is closed and emptied, and the entry leaves the list. Without one nothing happens. |
| ConversationDelete.FlagRow | src/pages/Chat.jsx:537-561 | Only deletion flags change, and only on rows of the deleted conversation. |
| ConversationDelete.FlagLog | src/pages/Chat.jsx:537-561 | Both flag updates applied to every row of a log, joins untouched. |
| ConversationDelete.CounterpartRowUnchanged | src/pages/Chat.jsx:537-561 | The deleter's flags never change what another participant sees of a row. |
| ConversationDelete.CounterpartListUnchanged | src/pages/Chat.jsx:537-561 | Deleting a conversation leaves every other user's conversation list exactly as it was, badges included. |
| ConversationDelete.RemoteDelete | src/pages/Chat.jsx:533-575 | An alert is shown exactly when a request throws, and it is the fixed retry message. Answered updates apply each flag whose request succeeded. A throw in the first request changes nothing, and a throw in the second keeps only the first update. |
| ConversationDelete.RemoteDeleteKeepsOthersLists | src/pages/Chat.jsx:533-575 | Whatever the two requests answer or throw, every other participant's conversation list stays exactly as it was. |
| ConversationDelete.RejectedFlagsAreSilent | src/pages/Chat.jsx:549-565 | Two updates that both answer with errors change nothing in the store and raise no alert. |
| ConversationDelete.FlagsHideConversation | src/pages/Chat.jsx:196-200 | Once both updates succeed, the conversation is off the deleter's list with or without a marker. |
| ConversationDelete.MarkerHidesOlderRows | src/pages/Chat.jsx:205-213 | With a marker, the conversation is listed exactly when one of its visible rows is newer than the marker. A later message brings it back. |
| ConversationDelete.DeleteMessage | src/pages/Chat.jsx:477-486 | After confirmation and a successful delete, exactly the rows with other ids remain, each as many times as before. Without confirmation, or on an error, nothing changes. |
| ConversationDelete.DeleteMessageExact | src/pages/Chat.jsx:477-486 | Deleting a message shown once leaves the rows before and after it, joined in order. |
| ConversationDelete.DeleteMessageIdempotent | src/pages/Chat.jsx:477-486 | Repeating the same delete changes nothing more. |
| Attachments.MaxSize | src/pages/Chat.jsx:71 | 5 MiB for images, 10 MiB for documents. |
| Attachments.Gate | src/pages/Chat.jsx:70-80 | A file passes exactly when it is within the limit and, for an image, its type starts with "image/". The size alert takes precedence over the type alert. |
| Attachments.LimitIsInclusive | src/pages/Chat.jsx:72 | A file of exactly the limit passes; one byte more is refused. |
| Attachments.StoragePath | src/pages/Chat.jsx:86-90 | The path lies in the user's folder, inside the listing's subfolder (`<user>/<listing>/…`), and ends with the file's extension. |
| Attachments.AttachmentRow | src/pages/Chat.jsx:102-109 | The row goes from the user to the partner about the listing, carries the URL, and says "Sent an image" or "Sent a file: <name>". |
| Attachments.Attach | src/pages/Chat.jsx:66-124 | Nothing happens without a file or an open conversation. A refused file raises the gate's alert and nothing else. An upload to the storage path happens exactly when the gate passes. A failed upload alerts with its message and inserts nothing; a successful one always inserts the announcing row, and a failed insert alerts with its message. There is no alert exactly when nothing was tried or everything succeeded. |
| Attachments.AttachSucceeds | src/pages/Chat.jsx:85-113 | A file that passes the gate, uploads and is recorded yields exactly one upload to its storage path, the announcing row with the public URL, and no alert. |
| Attachments.AttachmentBodyIsPlain | src/pages/Chat.jsx:102-109 | The announcing row is never read as a reply: it decodes to a `null` reply and its own text, whatever the file is called. |
| Marketplace.TargetPage | src/pages/Marketplace.jsx:58 | Load-more asks for the next page; any other fetch asks for page 0. |
| Marketplace.SortFor | src/pages/Marketplace.jsx:76-82 | The three menu choices map to their orderings. Any other value leaves the rows unordered. |
| Marketplace.BuildQuery | src/pages/Marketplace.jsx:30-82 | The range covers exactly nine rows starting at the target page. "All" means no category filter, an empty search means no title filter, and the title pattern wraps the search in `%`. |
| Marketplace.PagesTile | src/pages/Marketplace.jsx:58-60 | Consecutive pages meet without a gap or an overlap. |
| Marketplace.ApplyFetch | src/pages/Marketplace.jsx:84-101 | An error keeps the feed. Load-more appends and advances the page; a fresh fetch replaces and resets it. More is offered exactly when the answer was a full page. |
| Marketplace.ApplyFetchKeepsAligned | src/pages/Marketplace.jsx:88-96 | While more is offered, the cards shown are exactly the full pages read so far. |
| Marketplace.NextPageStartsAfterShown | src/pages/Marketplace.jsx:58-60 | On such a feed the next page starts right after the cards shown. |
| ItemStore.FetchItems | src/hooks/useItems.js:9-26 | Success replaces the list. An error is recorded and the list kept. |
| ItemStore.FetchUserItems | src/hooks/useItems.js:62-76 | Returns the rows, or an empty list when the data is missing. An error is recorded. |
| ItemStore.Merge | src/hooks/useItems.js:122 | The update's columns win and every other column stays. |
| ItemStore.UpdateLocal | src/hooks/useItems.js:122 | Exactly the rows with the id are merged; the others are untouched. |
| ItemStore.UpdateLocalIdempotent | src/hooks/useItems.js:122 | Applying the same update twice equals applying it once, for every update, including one that rewrites the id. |
| ItemStore.UpdateItem | src/hooks/useItems.js:112-124 | A store error is thrown with the list untouched. Otherwise the list is updated locally. |
| ItemStore.StorageKey | src/hooks/useItems.js:81 | The key is the URL's longest tail without a "/": it ends the URL, holds no "/", and is preceded by a "/" unless it is the whole URL. |
| ItemStore.StorageKeyRoundTrip | src/hooks/useItems.js:81 | The key of `<base>/<path>` is the path whenever the path holds no "/". |
| ItemStore.DeleteItem | src/hooks/useItems.js:78-106 | The image key read from a non-empty URL is removed, and nothing is removed otherwise. A record error is thrown with the list untouched. Otherwise exactly the rows with other ids remain, each as many times as before. |
| ItemStore.DeleteItemExact | src/hooks/useItems.js:105 | Deleting a listing shown once leaves the rows before and after it, joined in order. |
| ItemStore.DeleteItemIdempotent | src/hooks/useItems.js:105 | Deleting the same listing again removes nothing more. |
| ItemStore.Payload | src/hooks/useItems.js:54 | The form's columns, with the image URL and the signed-in user's id overriding same-named ones. |
| ItemStore.CreateItem | src/hooks/useItems.js:28-60 | Without a file, the row is inserted with no image. A failed upload throws before any insert. Otherwise the row carries the public URL, and the insert's answer is returned. |
| ItemStore.UploadPathIsFlat | src/hooks/useItems.js:32-34 | The upload path `<token>.<extension>` holds no "/" when neither the token nor the file name does. |
| ItemStore.DeleteRemovesUploadedImage | src/hooks/useItems.js:32-81 | The path a listing's image was uploaded to is exactly the key the delete reads back from its public URL `<bucket URL>/<path>`. |
| ItemStore.CreatedListingIsOwnedByCreator | src/hooks/useItems.js:54 | Every inserted listing is owned by the user who created it, whatever the form holds. |
| CampusAuth.DiffersAt | src/pages/Login.jsx:169-170 | A status line that differs from a prefix at some position does not start with it. |
| CampusAuth.SuccessLinesAreNotRed | src/pages/Login.jsx:166-176 | The code-sent lines and the account-not-found line are shown in the success colour. |
| CampusAuth.DomainErrorIsRed | src/pages/Login.jsx:166-176 | The domain error is shown in the error colour. |
| CampusAuth.LoginFailure | src/pages/Login.jsx:40-45 | The failure line is red exactly when the error is not "Signups not allowed". |
| CampusAuth.HandleLogin | src/pages/Login.jsx:19-49 | A code is requested for the address exactly when it has a campus ending. A refusal shows the domain error. Success moves to the code step; failure reports the reason. Loading always ends. |
| CampusAuth.HandleVerify | src/pages/Login.jsx:51-62 | Success navigates away. Failure shows "Verification failed: " and the reason, in red. The step never changes. |
| CampusAuth.HandleSignup | src/pages/Register.jsx:30-61 | A code is requested, with the name, student id and batch as metadata, exactly for a campus address. Success moves to the code step; failure shows "Error: " and the reason. |
| CampusAuth.LoginStatusStyle | src/pages/Login.jsx:19-49 | The sign-in status is red exactly for a refused address or a failure other than "Signups not allowed". |
| CampusAuth.SignupStatusStyle | src/pages/Register.jsx:240-247 | The sign-up status is red exactly for a refused address or a failed request. |
| CampusAuth.CampusAddressesPass | src/pages/Login.jsx:24-28 | Any address made of a local part and one of the two campus endings passes the domain check. |
| CampusAuth.CampusAddressesEndInCampusDomain | src/pages/Login.jsx:24-28 | Every address that passes holds an "@" and ends with ".lnbti.lk": an ending that occurs elsewhere in the address does not count. |

## Left out

- Backend I/O: every query and update is modelled by the answers it returns: an error
  value, a thrown error where the source catches one (`ConversationDelete.RemoteDelete`),
  or the rows.
  Realtime subscriptions, the 800 ms and 300 ms debounces and the window events are out
  of scope. So are `localStorage` access (modelled as the marker map), the console and
  the rendering.
- `JSON.parse` is a parameter returning `null`, an annotation object, or some other
  value together with its truthiness. Only that distinction matters to the chat.
- `Date.now()`, date parsing and `Math.random()` are parameters (`now`, `token`).
- Strings are sequences of characters. UTF-16 code units and the escaping of lone
  surrogates by `JSON.stringify` are not modelled.
- The conversation key is the pair (listing, partner), not the string
  `${item}-${partner}`. The string form is injective only while ids are fixed-length
  UUIDs, which the model takes as given.
- The partner-name fetch effect and navigation state passed in by the listing page are
  not modelled. The open conversation carries the partner's name directly.
- The navigation bar's unread counter (`useNotifications.js`) and the other pages are not
  part of this model. Only the event that tells the counter to recount is.
- Messages.MsgId: stored message ids are taken to be non-numeric (UUIDs), as the
  comment at `src/pages/Chat.jsx:376` assumes: only an optimistic id is a number. The
  model cannot express a numeric stored id. LiveFeed.Reduce, LiveFeed.FindPending,
  LiveFeed.ConfirmReplacesPending and LiveFeed.ReduceKeepsIdsDistinct rely on this. With
  an integer id column, an earlier stored row with the same text would be overwritten in
  place of the optimistic entry.
- Inbox.SummaryIsLatest: stated for a log already sorted newest first, the order the
  inbox query requests. It is not proved for an arbitrary log.
- ItemStore.DeleteRemovesUploadedImage: takes the public URL to be the bucket URL, a
  "/" and the path (the storage client is not modelled), and file names without "/".
- ReadTracking.MarkReadMatchesRecount: assumes the ids of the stored rows are distinct,
  as a primary key guarantees. The source relies on the same.

## Findings

| source | as written | input that shows it | evidently intended | confidence | as-written member | corrected member |
|---|---|---|---|---|---|---|
| src/pages/Chat.jsx:426-437 | The reply annotation is serialised with `JSON.stringify`, which leaves `:` in string values unescaped. `parseMessage` (line 51) ends the JSON at the first `:::` after the tag. A quoted preview containing `:::` therefore cuts the JSON short, `JSON.parse` throws, and the raw annotated body is displayed. | Reply "hi" to the partner's message "a:::b" | The reply displays its quote and exactly the typed text. Here this is achieved by writing `:` in string values as the escape `\u003a`, which keeps the JSON equivalent. | high, not executed | JsonText.QuotingDelimiterBreaksReply, LiveFeed.SentReplyQuotingDelimiterShowsRaw | LiveFeed.FixedReplyDisplaysAsTyped, JsonText.ColonSafeReplyRoundTrip |

=== FILE: attachments.dfy ===
/** Sending a picture or a document into the open conversation: a size and type gate, an
    upload into the chat bucket, then a message row that carries the file's public URL. */
module Attachments {
  import opened Common
  import opened Text
  import opened Messages
  import opened ReplyCodec
  import opened JsonText

  datatype Kind = Image | Document

  /** The chosen file as the browser describes it. */
  datatype FileInfo = FileInfo(name: string, size: nat, mime: string)

  const MiB: nat := 1024 * 1024

  /** 5 MiB for pictures, 10 MiB for documents. */
  function MaxSize(kind: Kind): (n: nat)
    ensures kind.Image? ==> n == 5 * MiB
    ensures kind.Document? ==> n == 10 * MiB
  {
    if kind.Image? then 5 * MiB else 10 * MiB
  }

  const ImagePrefix := "image/"
  const InvalidImage := "Please select a valid image file."
  const UploadFailed := "Upload failed: "

  function TooLarge(kind: Kind): string {
    "File too large. Limit: " + if kind.Image? then "5MB" else "10MB"
  }

  /** The alert the gate raises, or `None` when the file may be uploaded. */
  function Gate(file: FileInfo, kind: Kind): (alert: Option<string>)
    ensures alert.None? <==>
      file.size <= MaxSize(kind) && (kind.Image? ==> StartsWith(file.mime, ImagePrefix))
    ensures file.size > MaxSize(kind) ==> alert == Some(TooLarge(kind))
    ensures file.size <= MaxSize(kind) && alert.Some? ==> alert == Some(InvalidImage)
  {
    if file.size > MaxSize(kind) then Some(TooLarge(kind))
    else if kind.Image? && !StartsWith(file.mime, ImagePrefix) then Some(InvalidImage)
    else None
  }

  /** The limit is inclusive: a file of exactly the limit passes the size check, one
      byte more does not. */
  lemma LimitIsInclusive(name: string, kind: Kind)
    ensures Gate(FileInfo(name, MaxSize(kind), "image/png"), kind).None?
    ensures Gate(FileInfo(name, MaxSize(kind) + 1, "image/png"), kind) == Some(TooLarge(kind))
  {
    assert StartsWith("image/png", ImagePrefix) by {
      assert "image/png"[..|ImagePrefix|] == ImagePrefix;
    }
  }

  /** `<user>/<listing>/<clock>-<random>.<extension>`; `now` and `token` stand for
      `Date.now()` and the random base-36 suffix. */
  function StoragePath(u: UserId, itemId: ItemId, now: nat, token: string, name: string)
    : (path: string)
    ensures StartsWith(path, u + "/" + itemId + "/")
    ensures EndsWith(path, "." + AfterLast(name, '.'))
  {
    var head := u + "/" + itemId + "/";
    var tail := "." + AfterLast(name, '.');
    var path := head + (Decimal(now) + "-" + token) + tail;
    assert path[..|head|] == head;
    assert path[|path| - |tail|..] == tail;
    path
  }

  /** The message row that announces the file. */
  function AttachmentRow(kind: Kind, file: FileInfo, active: Active, u: UserId, url: string)
    : (row: NewRow)
    ensures row.senderId == u && row.receiverId == active.key.partner
    ensures row.itemId == active.key.itemId && row.imageUrl == Some(url)
    ensures row.body == if kind.Image? then "Sent an image" else "Sent a file: " + file.name
  {
    NewRow(u, active.key.partner, active.key.itemId,
           if kind.Image? then "Sent an image" else "Sent a file: " + file.name, Some(url))
  }

  /** What the handler did: the alert shown, the upload it requested and the row it asked
      the store to insert. */
  datatype AttachEffect = AttachEffect(alert: Option<string>, upload: Option<string>,
                                       insert: Option<NewRow>)

  /** `handleAttachmentUpload`, given the storage and insert answers and the public URL
      the bucket hands out for the path. */
  function Attach(file: Option<FileInfo>, kind: Kind, active: Option<Active>, u: UserId,
                  now: nat, token: string, uploaded: Outcome, url: string, inserted: Outcome)
    : (r: AttachEffect)
    ensures file.None? || active.None? ==> r == AttachEffect(None, None, None)
    ensures r.upload.Some? <==> file.Some? && active.Some? && Gate(file.value, kind).None?
    ensures r.insert.Some? ==>
      r.upload.Some? && uploaded.Done?
      && r.insert.value == AttachmentRow(kind, file.value, active.value, u, url)
    ensures r.alert.None? <==>
      file.None? || active.None? || (Gate(file.value, kind).None? && uploaded.Done? && inserted.Done?)
    ensures file.Some? && active.Some? && Gate(file.value, kind).Some? ==>
      r == AttachEffect(Gate(file.value, kind), None, None)
    ensures file.Some? && active.Some? && r.upload.Some? ==>
      r.upload.value == StoragePath(u, active.value.key.itemId, now, token, file.value.name)
    ensures r.upload.Some? && uploaded.Failed? ==>
      r.insert.None? && r.alert == Some(UploadFailed + uploaded.message)
    ensures r.upload.Some? && uploaded.Done? ==> r.insert.Some?
    ensures r.upload.Some? && uploaded.Done? && inserted.Failed? ==>
      r.alert == Some(UploadFailed + inserted.message)
  {
    if file.None? || active.None? then AttachEffect(None, None, None)
    else
      var f := file.value;
      var a := active.value;
      match Gate(f, kind)
      case Some(alert) => AttachEffect(Some(alert), None, None)
      case None =>
        var path := StoragePath(u, a.key.itemId, now, token, f.name);
        match uploaded
        case Failed(msg) => AttachEffect(Some(UploadFailed + msg), Some(path), None)
        case Done =>
          var row := AttachmentRow(kind, f, a, u, url);
          match inserted
          case Failed(msg) => AttachEffect(Some(UploadFailed + msg), Some(path), Some(row))
          case Done => AttachEffect(None, Some(path), Some(row))
  }

  /** A file that passes the gate, uploads and is recorded produces exactly one upload to
      its storage path, one message row carrying the public URL, and no alert. */
  lemma AttachSucceeds(file: FileInfo, kind: Kind, active: Active, u: UserId, now: nat,
                       token: string, url: string)
    requires Gate(file, kind).None?
    ensures Attach(Some(file), kind, Some(active), u, now, token, Done, url, Done)
      == AttachEffect(None, Some(StoragePath(u, active.key.itemId, now, token, file.name)),
                      Some(AttachmentRow(kind, file, active, u, url)))
  {
  }

  /** The announcing row is never read as a reply: whatever the file is called, its body
      shows as written with no quote bubble. */
  lemma AttachmentBodyIsPlain(kind: Kind, file: FileInfo, active: Active, u: UserId,
                              url: string, parse: JsonParser)
    ensures var body := AttachmentRow(kind, file, active, u, url).body;
      Decode(body, parse) == Decoded(Null, body)
  {
    var body := AttachmentRow(kind, file, active, u, url).body;
    assert body[0] == 'S';
    assert ReplyTag[0] == ':';
    assert !StartsWith(body, ReplyTag);
  }
}

=== FILE: campus_auth.dfy ===
/** Signing in and signing up with a one-time code: both forms accept campus addresses
    only, ask the auth service for a code, then verify it. */
module CampusAuth {
  import opened Common
  import opened Text

  /** The address endings the forms accept. */
  const AllowedDomains: seq<string> := ["@edu.lnbti.lk", "@student.lnbti.lk"]

  predicate IsCampusEmail(email: string) {
    exists i :: 0 <= i < |AllowedDomains| && EndsWith(email, AllowedDomains[i])
  }

  const DomainError := "Error: " + "Only campus emails (@edu.lnbti.lk) are allowed."
  const LoginCodeSent := "Verification code sent! Check your email."
  const SignupCodeSent := "Verification code sent to your email."
  const AccountNotFound := "Account not found. " + "Please create an account first."
  const SignupsNotAllowed := "Signups not allowed"

  /** The status line turns red when it starts with one of these. */
  predicate IsErrorStyled(message: string) {
    StartsWith(message, "Error") || StartsWith(message, "Verification failed")
  }

  /** A status line whose `k`-th character differs from the pattern's does not start
      with it. */
  lemma DiffersAt(s: string, p: string, k: nat)
    requires k < |p| && k < |s| && s[k] != p[k]
    ensures !StartsWith(s, p)
  {
    if |p| <= |s| {
      assert s[..|p|][k] != p[k];
    }
  }

  lemma SuccessLinesAreNotRed()
    ensures !IsErrorStyled(LoginCodeSent) && !IsErrorStyled(SignupCodeSent)
    ensures !IsErrorStyled(AccountNotFound)
  {
    DiffersAt(LoginCodeSent, "Error", 0);
    DiffersAt(LoginCodeSent, "Verification failed", 13);
    DiffersAt(SignupCodeSent, "Error", 0);
    DiffersAt(SignupCodeSent, "Verification failed", 13);
    assert AccountNotFound[0] == 'A';
    DiffersAt(AccountNotFound, "Error", 0);
    DiffersAt(AccountNotFound, "Verification failed", 0);
  }

  lemma DomainErrorIsRed()
    ensures IsErrorStyled(DomainError)
  {
    assert DomainError[..5] == "Error";
  }

  /** The sign-in form's two steps and the sign-up form's two steps. */
  datatype LoginStep = EnterEmail | EnterLoginCode
  datatype SignupStep = FillForm | EnterSignupCode

  /** A form's visible state: its step, its status line and its busy flag. */
  datatype Form<S> = Form(step: S, message: string, loading: bool)

  /** A handler's effect: the form afterwards, and the auth request it made, if any. */
  datatype Handled<S, Req> = Handled(form: Form<S>, request: Option<Req>)

  /** The status line after a failed code request at sign-in. */
  function LoginFailure(error: string): (m: string)
    ensures IsErrorStyled(m) <==> !Contains(error, SignupsNotAllowed)
  {
    if Contains(error, SignupsNotAllowed) then
      SuccessLinesAreNotRed();
      AccountNotFound
    else
      assert ("Error: " + error)[..5] == "Error";
      "Error: " + error
  }

  /** `handleLogin`: a non-campus address is refused before any request; otherwise a
      code is requested for the address and, if that succeeds, the form moves to the
      code step. */
  function HandleLogin(f: Form<LoginStep>, email: string, answer: Outcome)
    : (r: Handled<LoginStep, string>)
    ensures !r.form.loading
    ensures r.request.Some? <==> IsCampusEmail(email)
    ensures r.request.Some? ==> r.request.value == email
    ensures !IsCampusEmail(email) ==> r.form == Form(f.step, DomainError, false)
    ensures IsCampusEmail(email) && answer.Done? ==>
      r.form == Form(EnterLoginCode, LoginCodeSent, false)
    ensures IsCampusEmail(email) && answer.Failed? ==>
      r.form == Form(f.step, LoginFailure(answer.message), false)
  {
    if !IsCampusEmail(email) then Handled(Form(f.step, DomainError, false), None)
    else match answer
      case Done => Handled(Form(EnterLoginCode, LoginCodeSent, false), Some(email))
      case Failed(msg) => Handled(Form(f.step, LoginFailure(msg), false), Some(email))
  }

  /** `handleVerify` of either form: success leaves the page (`navigated`), failure
      reports the reason; the step never changes. */
  datatype Verified<S> = Verified(form: Form<S>, navigated: bool)

  function HandleVerify<S>(f: Form<S>, answer: Outcome): (r: Verified<S>)
    ensures !r.form.loading && r.form.step == f.step
    ensures r.navigated <==> answer.Done?
    ensures answer.Done? ==> r.form.message == f.message
    ensures answer.Failed? ==>
      r.form.message == "Verification failed: " + answer.message && IsErrorStyled(r.form.message)
  {
    match answer
    case Done => Verified(f.(loading := false), true)
    case Failed(msg) =>
      var m := "Verification failed: " + msg;
      assert m[..|"Verification failed"|] == "Verification failed";
      Verified(Form(f.step, m, false), false)
  }

  /** The sign-up form's fields. */
  datatype SignupData = SignupData(name: string, email: string, studentId: string, batch: string)

  /** The profile data sent with the sign-up request. */
  datatype Metadata = Metadata(name: string, studentId: string, batch: string)

  /** `handleSignup`: a non-campus address is refused before any request; otherwise a
      code is requested with the profile fields as metadata. */
  function HandleSignup(f: Form<SignupStep>, data: SignupData, answer: Outcome)
    : (r: Handled<SignupStep, (string, Metadata)>)
    ensures !r.form.loading
    ensures r.request.Some? <==> IsCampusEmail(data.email)
    ensures r.request.Some? ==>
      r.request.value == (data.email, Metadata(data.name, data.studentId, data.batch))
    ensures !IsCampusEmail(data.email) ==> r.form == Form(f.step, DomainError, false)
    ensures IsCampusEmail(data.email) && answer.Done? ==>
      r.form == Form(EnterSignupCode, SignupCodeSent, false)
    ensures IsCampusEmail(data.email) && answer.Failed? ==>
      r.form == Form(f.step, "Error: " + answer.message, false)
  {
    if !IsCampusEmail(data.email) then Handled(Form(f.step, DomainError, false), None)
    else
      var request := (data.email, Metadata(data.name, data.studentId, data.batch));
      match answer
      case Done => Handled(Form(EnterSignupCode, SignupCodeSent, false), Some(request))
      case Failed(msg) => Handled(Form(f.step, "Error: " + msg, false), Some(request))
  }

  /** The status line is red exactly when a handler failed, with one exception: the
      sign-in form's "account not found" answer is shown in the success colour. */
  lemma LoginStatusStyle(f: Form<LoginStep>, email: string, answer: Outcome)
    ensures var m := HandleLogin(f, email, answer).form.message;
      IsErrorStyled(m) <==>
        !IsCampusEmail(email) || (answer.Failed? && !Contains(answer.message, SignupsNotAllowed))
  {
    DomainErrorIsRed();
    SuccessLinesAreNotRed();
  }

  lemma SignupStatusStyle(f: Form<SignupStep>, data: SignupData, answer: Outcome)
    ensures IsErrorStyled(HandleSignup(f, data, answer).form.message) <==>
      !IsCampusEmail(data.email) || answer.Failed?
  {
    DomainErrorIsRed();
    SuccessLinesAreNotRed();
    if IsCampusEmail(data.email) && answer.Failed? {
      assert ("Error: " + answer.message)[..5] == "Error";
    }
  }

  /** Any local part followed by one of the two endings passes the domain check. */
  lemma CampusAddressesPass(local: string, i: nat)
    requires i < |AllowedDomains|
    ensures IsCampusEmail(local + AllowedDomains[i])
  {
    var e := local + AllowedDomains[i];
    assert e[|e| - |AllowedDomains[i]|..] == AllowedDomains[i];
  }

  /** Each ending is `@` followed by a name ending in `.lnbti.lk`. */
  lemma DomainShape(i: nat)
    requires i < |AllowedDomains|
    ensures EndsWith(AllowedDomains[i], ".lnbti.lk") && AllowedDomains[i][0] == '@'
  {
    var d := AllowedDomains[i];
    assert d[|d| - 9..] == ".lnbti.lk";
  }

  /** The domain check is a suffix test: an accepted address holds an `@` and ends with
      `.lnbti.lk`, so an ending that occurs elsewhere in the address does not count. */
  lemma CampusAddressesEndInCampusDomain(email: string)
    requires IsCampusEmail(email)
    ensures EndsWith(email, ".lnbti.lk") && '@' in email
  {
    var i :| 0 <= i < |AllowedDomains| && EndsWith(email, AllowedDomains[i]);
    DomainShape(i);
    EndsWithTransitive(email, AllowedDomains[i], ".lnbti.lk");
    assert email[|email| - |AllowedDomains[i]|] == AllowedDomains[i][0];
  }
}

=== FILE: common.dfy ===
/** Small failure-carrying datatypes shared by every module of the model. */
module Common {

  /** A value that may be missing: `null`/`undefined` in the source. */
  datatype Option<+T> = None | Some(value: T)

  /** A backend answer that carries data or an error with its message. */
  datatype Result<+T> = Ok(value: T) | Err(message: string)

  /** A backend answer whose only content is whether it failed, and why. */
  datatype Outcome = Done | Failed(message: string)

  /** `Array.prototype.filter`: the elements satisfying `p`, each as often as in `s`, in
      their original order (`FilterConcat`, `FilterSingle`). */
  function Filter<T>(s: seq<T>, p: T -> bool): (r: seq<T>)
    ensures |r| <= |s|
    ensures forall k :: 0 <= k < |r| ==> r[k] in s && p(r[k])
    ensures forall k :: 0 <= k < |s| && p(s[k]) ==> s[k] in r
  {
    if |s| == 0 then [] else (if p(s[0]) then [s[0]] else []) + Filter(s[1..], p)
  }

  /** The filter keeps every passing element as often as it occurs, and no other. */
  lemma {:induction false} FilterCount<T>(s: seq<T>, p: T -> bool, x: T)
    ensures multiset(Filter(s, p))[x] == if p(x) then multiset(s)[x] else 0
  {
    if |s| > 0 {
      assert s == [s[0]] + s[1..];
      FilterCount(s[1..], p, x);
    }
  }

  /** A one-element sequence is kept or dropped whole. */
  lemma FilterSingle<T>(x: T, p: T -> bool)
    ensures Filter([x], p) == if p(x) then [x] else []
  {
    assert [x][1..] == [];
  }

  /** Dropping the one failing element between two passing runs leaves the runs joined,
      in order. */
  lemma FilterDropsOne<T>(xs: seq<T>, x: T, ys: seq<T>, p: T -> bool)
    requires forall k :: 0 <= k < |xs| ==> p(xs[k])
    requires forall k :: 0 <= k < |ys| ==> p(ys[k])
    requires !p(x)
    ensures Filter(xs + [x] + ys, p) == xs + ys
  {
    FilterConcat(xs + [x], ys, p);
    FilterConcat(xs, [x], p);
    FilterSingle(x, p);
    FilterKeepsAll(xs, p);
    FilterKeepsAll(ys, p);
    assert xs + [] == xs;
  }

  /** Filtering twice is filtering once. */
  lemma FilterIdempotent<T>(s: seq<T>, p: T -> bool)
    ensures Filter(Filter(s, p), p) == Filter(s, p)
  {
    FilterKeepsAll(Filter(s, p), p);
  }

  /** Filtering a concatenation filters each part in place. */
  lemma {:induction false} FilterConcat<T>(a: seq<T>, b: seq<T>, p: T -> bool)
    ensures Filter(a + b, p) == Filter(a, p) + Filter(b, p)
  {
    if |a| > 0 {
      assert (a + b)[0] == a[0];
      assert (a + b)[1..] == a[1..] + b;
      FilterConcat(a[1..], b, p);
    } else {
      assert a + b == b;
    }
  }

  /** A filter every element passes keeps the sequence as it is. */
  lemma {:induction false} FilterKeepsAll<T>(s: seq<T>, p: T -> bool)
    requires forall k :: 0 <= k < |s| ==> p(s[k])
    ensures Filter(s, p) == s
  {
    if |s| > 0 {
      FilterKeepsAll(s[1..], p);
    }
  }
}

=== FILE: conversation_delete.dfy ===
/** Deleting: a whole conversation (soft, per side, backed by a device-local marker) and
    a single message (a hard delete of the row). */
module ConversationDelete {
  import opened Common
  import opened Messages
  import opened ReplyCodec
  import opened Inbox

  /** The list update's filter, `c => !(c is the conversation key)`. */
  function OtherConversation(key: ConvKey): Conversation -> bool {
    (c: Conversation) => Key(c) != key
  }

  /** The list without the conversation `key`; every other entry stays, as often as it
      was listed, and in order (`RemoveConversationExact`). */
  function RemoveConversation(convs: seq<Conversation>, key: ConvKey): (r: seq<Conversation>)
    ensures forall j :: 0 <= j < |r| ==> Key(r[j]) != key && r[j] in convs
    ensures forall j :: 0 <= j < |convs| ==> (Key(convs[j]) != key ==> convs[j] in r)
    ensures forall c :: multiset(r)[c] == if Key(c) != key then multiset(convs)[c] else 0
  {
    var r := Filter(convs, OtherConversation(key));
    assert forall c :: multiset(r)[c] == if Key(c) != key then multiset(convs)[c] else 0 by {
      forall c
        ensures multiset(r)[c] == if Key(c) != key then multiset(convs)[c] else 0
      {
        FilterCount(convs, OtherConversation(key), c);
      }
    }
    r
  }

  /** Removing a conversation listed once leaves the entries before and after it joined,
      in order. */
  lemma RemoveConversationExact(xs: seq<Conversation>, c: Conversation, ys: seq<Conversation>)
    requires forall k :: 0 <= k < |xs| ==> Key(xs[k]) != Key(c)
    requires forall k :: 0 <= k < |ys| ==> Key(ys[k]) != Key(c)
    ensures RemoveConversation(xs + [c] + ys, Key(c)) == xs + ys
  {
    FilterDropsOne(xs, c, ys, OtherConversation(Key(c)));
  }

  /** The chat screen's local state that a conversation delete touches. */
  datatype ChatState = ChatState(marks: Marks, convs: seq<Conversation>,
                                 active: Option<Active>, messages: seq<Message>)

  /** The local half of confirming a conversation delete at time `now`: the marker is
      written, the thread is closed and the entry leaves the list.  Without an open
      conversation nothing happens. */
  function ConfirmDelete(s: ChatState, now: nat): (r: ChatState)
    ensures s.active.None? ==> r == s
    ensures s.active.Some? ==>
      var key := s.active.value.key;
      && r.marks == s.marks[key := now]
      && r.active.None? && r.messages == []
      && r.convs == RemoveConversation(s.convs, key)
  {
    match s.active
    case None => s
    case Some(a) => ChatState(s.marks[a.key := now], RemoveConversation(s.convs, a.key), None, [])
  }

  /** The two direction-scoped flag updates on one row, each applied only when its
      request succeeded (a failed request is only logged). */
  function FlagRow(m: Message, key: ConvKey, u: UserId, sent: Outcome, received: Outcome)
    : (r: Message)
    ensures r.(deletedBySender := m.deletedBySender, deletedByReceiver := m.deletedByReceiver) == m
    ensures !(m.itemId == key.itemId && InPair(m, u, key.partner)) ==> r == m
  {
    var m1 := if sent.Done? then DeleteSent(m, key.itemId, u, key.partner) else m;
    if received.Done? then DeleteReceived(m1, key.itemId, key.partner, u) else m1
  }

  /** The store after both updates, seen through an inbox log. */
  function FlagLog(log: seq<InboxRow>, key: ConvKey, u: UserId, sent: Outcome, received: Outcome)
    : (r: seq<InboxRow>)
    ensures |r| == |log|
    ensures forall i :: 0 <= i < |log| ==>
      r[i] == InboxRow(FlagRow(log[i].msg, key, u, sent, received), log[i].join)
  {
    seq(|log|, i requires 0 <= i < |log| =>
      InboxRow(FlagRow(log[i].msg, key, u, sent, received), log[i].join))
  }

  /** What the partner (or anybody else) sees of a row is untouched by the deleter's
      flags. */
  lemma CounterpartRowUnchanged(m: Message, key: ConvKey, u: UserId, w: UserId,
                                sent: Outcome, received: Outcome)
    requires w != u
    requires Involves(m, w)
    ensures VisibleTo(FlagRow(m, key, u, sent, received), w) == VisibleTo(m, w)
    ensures ThreadVisible(FlagRow(m, key, u, sent, received), w) == ThreadVisible(m, w)
  {
  }

  /** Deleting a conversation leaves every other user's conversation list exactly as it
      was, badges included. */
  lemma CounterpartListUnchanged(log: seq<InboxRow>, w: Viewer, parse: JsonParser, key: ConvKey,
                                 u: UserId, sent: Outcome, received: Outcome)
    requires w.self != u
    requires forall i :: 0 <= i < |log| ==> Involves(log[i].msg, w.self)
    ensures Summaries(FlagLog(log, key, u, sent, received), w, parse) == Summaries(log, w, parse)
  {
    var log' := FlagLog(log, key, u, sent, received);
    forall i | 0 <= i < |log|
      ensures Counts(log'[i].msg, w) == Counts(log[i].msg, w)
    {
      CounterpartRowUnchanged(log[i].msg, key, u, w.self, sent, received);
    }
    assert SameOpenings(log, log', w, parse);
    SummariesAgreeButBadges(log, log', w, parse);
    var s := Summaries(log, w, parse);
    forall j | 0 <= j < |s|
      ensures UnreadIn(log', |log'|, Key(s[j]), w) == UnreadIn(log, |log|, Key(s[j]), w)
    {
      UnreadAgree(log, log', w, |log|, Key(s[j]));
    }
  }

  /** Once both updates succeed, no row of the conversation counts for the deleter any
      more, so it stays off their list on every device, marker or not. */
  lemma FlagsHideConversation(log: seq<InboxRow>, v: Viewer, parse: JsonParser, key: ConvKey)
    requires forall i :: 0 <= i < |log| ==> Involves(log[i].msg, v.self)
    ensures var s := Summaries(FlagLog(log, key, v.self, Done, Done), v, parse);
      forall j :: 0 <= j < |s| ==> Key(s[j]) != key
  {
    var log' := FlagLog(log, key, v.self, Done, Done);
    var s := Summaries(log', v, parse);
    forall i | 0 <= i < |log'|
      ensures !(Counts(log'[i].msg, v) && KeyFor(log'[i].msg, v.self) == key)
    {
    }
    assert !CountsBefore(log', |log'|, key, v);
    ListedIffCounting(log', v, parse, key);
  }

  /** With a marker for `key`, the conversation is listed exactly when a row of it that
      the viewer has not flagged away is newer than the marker: deleting hides the
      history on this device, and a later message brings the conversation back. */
  lemma MarkerHidesOlderRows(log: seq<InboxRow>, v: Viewer, parse: JsonParser, key: ConvKey)
    requires key in v.marks
    ensures var s := Summaries(log, v, parse);
      (exists j :: 0 <= j < |s| && Key(s[j]) == key)
      <==> exists i :: 0 <= i < |log| && KeyFor(log[i].msg, v.self) == key
                       && VisibleTo(log[i].msg, v.self) && log[i].msg.createdAt > v.marks[key]
  {
    ListedIffCounting(log, v, parse, key);
  }

  /** How the two flag updates answered: each with an error value or not, or a throw
      during the first or the second request. */
  datatype FlagAnswers =
    | Answered(sent: Outcome, received: Outcome)
    | ThrewFirst(message: string)
    | ThrewSecond(sent: Outcome, message: string)

  const DeleteFailed := "Something went wrong while deleting. " + "Please try again."

  /** The store after the two updates, and the alert shown. */
  datatype RemoteEffect = RemoteEffect(log: seq<InboxRow>, alert: Option<string>)

  /** The `try` block of `confirmDeleteConversation`: an error value is only logged, a
      throw alerts; the local half (`ConfirmDelete`) has already happened either way and
      is not rolled back. */
  function RemoteDelete(log: seq<InboxRow>, key: ConvKey, u: UserId, answers: FlagAnswers)
    : (r: RemoteEffect)
    ensures r.alert.Some? <==> !answers.Answered?
    ensures r.alert.Some? ==> r.alert.value == DeleteFailed
    ensures answers.Answered? ==> r.log == FlagLog(log, key, u, answers.sent, answers.received)
    ensures answers.ThrewFirst? ==> r.log == log
    ensures answers.ThrewSecond? ==>
      r.log == FlagLog(log, key, u, answers.sent, Failed(answers.message))
  {
    match answers
    case Answered(sent, received) => RemoteEffect(FlagLog(log, key, u, sent, received), None)
    case ThrewFirst(_) => RemoteEffect(log, Some(DeleteFailed))
    case ThrewSecond(sent, msg) =>
      RemoteEffect(FlagLog(log, key, u, sent, Failed(msg)), Some(DeleteFailed))
  }

  /** Whatever the store answers or throws, no other participant's conversation list
      changes. */
  lemma RemoteDeleteKeepsOthersLists(log: seq<InboxRow>, w: Viewer, parse: JsonParser,
                                     key: ConvKey, u: UserId, answers: FlagAnswers)
    requires w.self != u
    requires forall i :: 0 <= i < |log| ==> Involves(log[i].msg, w.self)
    ensures Summaries(RemoteDelete(log, key, u, answers).log, w, parse) == Summaries(log, w, parse)
  {
    match answers {
      case Answered(sent, received) =>
        CounterpartListUnchanged(log, w, parse, key, u, sent, received);
      case ThrewFirst(_) =>
      case ThrewSecond(sent, msg) =>
        CounterpartListUnchanged(log, w, parse, key, u, sent, Failed(msg));
    }
  }

  /** Updates that answer with errors change nothing in the store and raise no alert:
      the deleter sees the conversation gone only through the local marker. */
  lemma RejectedFlagsAreSilent(log: seq<InboxRow>, key: ConvKey, u: UserId, e1: string,
                               e2: string)
    ensures RemoteDelete(log, key, u, Answered(Failed(e1), Failed(e2)))
         == RemoteEffect(log, None)
  {
    var r := FlagLog(log, key, u, Failed(e1), Failed(e2));
    assert r == log;
  }

  /** The thread update's filter, `m => m.id !== messageId`. */
  function OtherMessage(id: MsgId): Message -> bool {
    (m: Message) => m.id != id
  }

  /** `handleDeleteMessage`: after the confirmation and a successful row delete, the
      rows with that id leave the thread and every other row stays, in order
      (`DeleteMessageExact`); otherwise nothing changes. */
  function DeleteMessage(ms: seq<Message>, id: MsgId, confirmed: bool, outcome: Outcome)
    : (r: seq<Message>)
    ensures !confirmed || outcome.Failed? ==> r == ms
    ensures confirmed && outcome.Done? ==>
      (forall k :: 0 <= k < |r| ==> r[k].id != id && r[k] in ms)
      && (forall k :: 0 <= k < |ms| ==> (ms[k].id != id ==> ms[k] in r))
      && (forall m :: multiset(r)[m] == if m.id != id then multiset(ms)[m] else 0)
  {
    if confirmed && outcome.Done? then
      var r := Filter(ms, OtherMessage(id));
      assert forall m :: multiset(r)[m] == if m.id != id then multiset(ms)[m] else 0 by {
        forall m
          ensures multiset(r)[m] == if m.id != id then multiset(ms)[m] else 0
        {
          FilterCount(ms, OtherMessage(id), m);
        }
      }
      r
    else ms
  }

  /** Deleting a message shown once leaves the rows before and after it joined, in
      order. */
  lemma DeleteMessageExact(xs: seq<Message>, m: Message, ys: seq<Message>)
    requires forall k :: 0 <= k < |xs| ==> xs[k].id != m.id
    requires forall k :: 0 <= k < |ys| ==> ys[k].id != m.id
    ensures DeleteMessage(xs + [m] + ys, m.id, true, Done) == xs + ys
  {
    FilterDropsOne(xs, m, ys, OtherMessage(m.id));
  }

  /** A repeated delete of the same message changes nothing more. */
  lemma DeleteMessageIdempotent(ms: seq<Message>, id: MsgId, confirmed: bool, outcome: Outcome)
    ensures DeleteMessage(DeleteMessage(ms, id, confirmed, outcome), id, confirmed, outcome)
         == DeleteMessage(ms, id, confirmed, outcome)
  {
    FilterIdempotent(ms, OtherMessage(id));
  }
}

=== FILE: inbox.dfy ===
/** The conversation list: the user's newest-first message log folded into one
    summary per (listing, partner), after the deletion flags and the local deletion
    markers have been applied. */
module Inbox {
  import opened Common
  import opened Messages
  import opened ReplyCodec

  /** The joined columns the inbox query selects with each row: the listing's title and
      image and both participants' names ("" when the profile has none). */
  datatype Joined = Joined(itemTitle: Option<string>, itemImage: Option<string>,
                           senderName: string, receiverName: string)

  datatype InboxRow = InboxRow(msg: Message, join: Joined)

  /** One entry of the conversation list. */
  datatype Conversation = Conversation(
    itemId: ItemId,
    otherUserId: UserId,
    itemTitle: Option<string>,
    itemImage: Option<string>,
    lastMessage: string,
    lastTime: nat,
    partnerName: string,
    unreadCount: nat)

  /** Local deletion markers, `deleted_conversation_<item>-<partner>`: the time the user
      deleted that conversation on this device. */
  type Marks = map<ConvKey, nat>

  /** Whose list is being computed, with that device's markers. */
  datatype Viewer = Viewer(self: UserId, marks: Marks)

  function Key(c: Conversation): ConvKey {
    ConvKey(c.itemId, c.otherUserId)
  }

  /** The row is at or before the local deletion marker of its conversation. */
  predicate Suppressed(m: Message, v: Viewer) {
    var k := KeyFor(m, v.self);
    k in v.marks && m.createdAt <= v.marks[k]
  }

  /** The row takes part in the viewer's conversation list. */
  predicate Counts(m: Message, v: Viewer) {
    VisibleTo(m, v.self) && !Suppressed(m, v)
  }

  /** The row was sent by the partner and is still unread. */
  predicate Inbound(m: Message, u: UserId) {
    m.senderId != u && !m.read
  }

  /** Some counting row before position `n` belongs to conversation `k`. */
  predicate Seen(log: seq<InboxRow>, n: nat, k: ConvKey, v: Viewer)
    requires n <= |log|
  {
    n > 0 && (Seen(log, n - 1, k, v) || (Counts(log[n - 1].msg, v) && KeyFor(log[n - 1].msg, v.self) == k))
  }

  /** Row `i` is the first counting row of its conversation. */
  predicate IsFirst(log: seq<InboxRow>, i: nat, v: Viewer)
    requires i < |log|
  {
    Counts(log[i].msg, v) && !Seen(log, i, KeyFor(log[i].msg, v.self), v)
  }

  /** The positions below `n` that open a conversation, in log order. */
  function Firsts(log: seq<InboxRow>, n: nat, v: Viewer): (r: seq<nat>)
    requires n <= |log|
    ensures forall j :: 0 <= j < |r| ==> r[j] < n && IsFirst(log, r[j], v)
    ensures forall a, b :: 0 <= a < b < |r| ==> r[a] < r[b]
  {
    if n == 0 then []
    else Firsts(log, n - 1, v) + (if IsFirst(log, n - 1, v) then [n - 1] else [])
  }

  /** Counting inbound unread rows of conversation `k` before position `n`. */
  function UnreadIn(log: seq<InboxRow>, n: nat, k: ConvKey, v: Viewer): nat
    requires n <= |log|
  {
    if n == 0 then 0
    else
      var m := log[n - 1].msg;
      UnreadIn(log, n - 1, k, v)
      + (if Counts(m, v) && KeyFor(m, v.self) == k && Inbound(m, v.self) then 1 else 0)
  }

  /** `name || "User"` */
  function NameOr(name: string): string {
    if name != "" then name else "User"
  }

  /** The list entry opened by `row`, with the reply annotation stripped from the
      preview and the given unread count. */
  function Summary(row: InboxRow, v: Viewer, parse: JsonParser, unread: nat): Conversation {
    var m := row.msg;
    Conversation(
      m.itemId, PartnerOf(m, v.self), row.join.itemTitle, row.join.itemImage,
      Decode(m.body, parse).content, m.createdAt,
      NameOr(if m.senderId == v.self then row.join.receiverName else row.join.senderName),
      unread)
  }

  /** The conversation list the log determines: one entry per conversation, opened by
      its first counting row and carrying the conversation's whole unread count. */
  function Summaries(log: seq<InboxRow>, v: Viewer, parse: JsonParser): seq<Conversation> {
    var f := Firsts(log, |log|, v);
    seq(|f|, j requires 0 <= j < |f| =>
      Summary(log[f[j]], v, parse, UnreadIn(log, |log|, KeyFor(log[f[j]].msg, v.self), v)))
  }

  lemma {:induction false} UnseenHasNoUnread(log: seq<InboxRow>, n: nat, k: ConvKey, v: Viewer)
    requires n <= |log|
    requires !Seen(log, n, k, v)
    ensures UnreadIn(log, n, k, v) == 0
  {
    if n > 0 {
      UnseenHasNoUnread(log, n - 1, k, v);
    }
  }

  /** Some counting row of conversation `k` lies before position `n`. */
  ghost predicate CountsBefore(log: seq<InboxRow>, n: nat, k: ConvKey, v: Viewer)
    requires n <= |log|
  {
    exists i :: 0 <= i < n && Counts(log[i].msg, v) && KeyFor(log[i].msg, v.self) == k
  }

  lemma {:induction false} SeenIffCounting(log: seq<InboxRow>, n: nat, k: ConvKey, v: Viewer)
    requires n <= |log|
    ensures Seen(log, n, k, v) <==> CountsBefore(log, n, k, v)
  {
    if n > 0 {
      SeenIffCounting(log, n - 1, k, v);
      if Seen(log, n, k, v) {
        if Seen(log, n - 1, k, v) {
          var i :| 0 <= i < n - 1 && Counts(log[i].msg, v) && KeyFor(log[i].msg, v.self) == k;
          assert 0 <= i < n;
        } else {
          assert Counts(log[n - 1].msg, v) && KeyFor(log[n - 1].msg, v.self) == k;
        }
      } else {
        forall i | 0 <= i < n
          ensures !(Counts(log[i].msg, v) && KeyFor(log[i].msg, v.self) == k)
        {
          if i < n - 1 {
            assert !CountsBefore(log, n - 1, k, v);
          }
        }
      }
    }
  }

  /** A conversation seen before `n` was opened by a first row before `n`. */
  lemma {:induction false} SeenHasFirst(log: seq<InboxRow>, n: nat, k: ConvKey, v: Viewer)
    returns (i: nat)
    requires n <= |log|
    requires Seen(log, n, k, v)
    ensures i < n && IsFirst(log, i, v) && KeyFor(log[i].msg, v.self) == k
  {
    if Seen(log, n - 1, k, v) {
      i := SeenHasFirst(log, n - 1, k, v);
    } else {
      i := n - 1;
    }
  }

  lemma {:induction false} FirstsComplete(log: seq<InboxRow>, n: nat, v: Viewer, i: nat)
    requires i < n <= |log|
    requires IsFirst(log, i, v)
    ensures i in Firsts(log, n, v)
  {
    if i < n - 1 {
      FirstsComplete(log, n - 1, v, i);
    }
  }

  lemma FirstsOpenDistinctKeys(log: seq<InboxRow>, n: nat, v: Viewer, a: nat, b: nat)
    requires n <= |log|
    requires a < b < |Firsts(log, n, v)|
    ensures var f := Firsts(log, n, v);
      KeyFor(log[f[a]].msg, v.self) != KeyFor(log[f[b]].msg, v.self)
  {
    var f := Firsts(log, n, v);
    var k := KeyFor(log[f[a]].msg, v.self);
    assert f[a] < f[b];
    SeenIffCounting(log, f[b], k, v);
  }

  /** No conversation is listed twice. */
  lemma SummariesDistinct(log: seq<InboxRow>, v: Viewer, parse: JsonParser)
    ensures var s := Summaries(log, v, parse);
      forall a, b :: 0 <= a < b < |s| ==> Key(s[a]) != Key(s[b])
  {
    var s := Summaries(log, v, parse);
    var f := Firsts(log, |log|, v);
    forall a, b | 0 <= a < b < |s|
      ensures Key(s[a]) != Key(s[b])
    {
      FirstsOpenDistinctKeys(log, |log|, v, a, b);
      assert Key(s[a]) == KeyFor(log[f[a]].msg, v.self);
      assert Key(s[b]) == KeyFor(log[f[b]].msg, v.self);
    }
  }

  /** A conversation is listed exactly when at least one of its rows is visible to the
      viewer and newer than the viewer's deletion marker for it. */
  lemma ListedIffCounting(log: seq<InboxRow>, v: Viewer, parse: JsonParser, k: ConvKey)
    ensures var s := Summaries(log, v, parse);
      (exists j :: 0 <= j < |s| && Key(s[j]) == k) <==> CountsBefore(log, |log|, k, v)
  {
    var s := Summaries(log, v, parse);
    var f := Firsts(log, |log|, v);
    if exists j :: 0 <= j < |s| && Key(s[j]) == k {
      var j :| 0 <= j < |s| && Key(s[j]) == k;
      assert Counts(log[f[j]].msg, v) && KeyFor(log[f[j]].msg, v.self) == k;
    }
    if CountsBefore(log, |log|, k, v) {
      SeenIffCounting(log, |log|, k, v);
      var i := SeenHasFirst(log, |log|, k, v);
      FirstsComplete(log, |log|, v, i);
      var j :| 0 <= j < |f| && f[j] == i;
      assert Key(s[j]) == k;
    }
  }

  lemma {:induction false} UnreadPositiveIff(log: seq<InboxRow>, n: nat, k: ConvKey, v: Viewer)
    requires n <= |log|
    ensures UnreadIn(log, n, k, v) > 0 <==>
      exists i :: 0 <= i < n && Counts(log[i].msg, v) && KeyFor(log[i].msg, v.self) == k
                  && Inbound(log[i].msg, v.self)
  {
    if n > 0 {
      UnreadPositiveIff(log, n - 1, k, v);
      if UnreadIn(log, n - 1, k, v) > 0 {
        var i :| 0 <= i < n - 1 && Counts(log[i].msg, v) && KeyFor(log[i].msg, v.self) == k
                 && Inbound(log[i].msg, v.self);
        assert 0 <= i < n;
      }
    }
  }

  /** An entry shows an unread badge exactly when the conversation holds a counting row
      from the partner that is still unread. */
  lemma BadgeIffUnreadRow(log: seq<InboxRow>, v: Viewer, parse: JsonParser, j: nat)
    requires j < |Summaries(log, v, parse)|
    ensures var c := Summaries(log, v, parse)[j];
      c.unreadCount > 0 <==>
        exists i :: 0 <= i < |log| && Counts(log[i].msg, v) && KeyFor(log[i].msg, v.self) == Key(c)
                    && Inbound(log[i].msg, v.self)
  {
    var c := Summaries(log, v, parse)[j];
    UnreadPositiveIff(log, |log|, Key(c), v);
  }

  /** The log as the inbox query returns it, `order("created_at", {ascending: false})`. */
  predicate NewestFirst(log: seq<InboxRow>) {
    forall a, b :: 0 <= a < b < |log| ==> log[a].msg.createdAt >= log[b].msg.createdAt
  }

  /** On a newest-first log every entry previews the conversation's latest counting row. */
  lemma SummaryIsLatest(log: seq<InboxRow>, v: Viewer, parse: JsonParser, j: nat, i: nat)
    requires NewestFirst(log)
    requires j < |Summaries(log, v, parse)|
    requires i < |log| && Counts(log[i].msg, v)
    requires KeyFor(log[i].msg, v.self) == Key(Summaries(log, v, parse)[j])
    ensures Summaries(log, v, parse)[j].lastTime >= log[i].msg.createdAt
  {
    var f := Firsts(log, |log|, v);
    var k := KeyFor(log[i].msg, v.self);
    SeenIffCounting(log, f[j], k, v);
    assert forall i' :: 0 <= i' < f[j] ==> !(Counts(log[i'].msg, v) && KeyFor(log[i'].msg, v.self) == k);
  }

  /** On a newest-first log the list comes out newest conversation first. */
  lemma SummariesNewestFirst(log: seq<InboxRow>, v: Viewer, parse: JsonParser)
    requires NewestFirst(log)
    ensures var s := Summaries(log, v, parse);
      forall a, b :: 0 <= a < b < |s| ==> s[a].lastTime >= s[b].lastTime
  {
  }

  /** Two logs of the same length that agree row by row on which rows count, on their
      conversations and on everything an entry shows apart from its badge. */
  ghost predicate SameOpenings(log: seq<InboxRow>, log': seq<InboxRow>, v: Viewer,
                               parse: JsonParser)
  {
    |log'| == |log|
    && forall i :: 0 <= i < |log| ==>
         Counts(log'[i].msg, v) == Counts(log[i].msg, v)
         && KeyFor(log'[i].msg, v.self) == KeyFor(log[i].msg, v.self)
         && Summary(log'[i], v, parse, 0) == Summary(log[i], v, parse, 0)
  }

  lemma {:induction false} SeenAgree(log: seq<InboxRow>, log': seq<InboxRow>, v: Viewer,
                                     parse: JsonParser, n: nat, k: ConvKey)
    requires SameOpenings(log, log', v, parse) && n <= |log|
    ensures Seen(log', n, k, v) == Seen(log, n, k, v)
  {
    if n > 0 {
      SeenAgree(log, log', v, parse, n - 1, k);
    }
  }

  lemma {:induction false} FirstsAgree(log: seq<InboxRow>, log': seq<InboxRow>, v: Viewer,
                                       parse: JsonParser, n: nat)
    requires SameOpenings(log, log', v, parse) && n <= |log|
    ensures Firsts(log', n, v) == Firsts(log, n, v)
  {
    if n > 0 {
      FirstsAgree(log, log', v, parse, n - 1);
      SeenAgree(log, log', v, parse, n - 1, KeyFor(log[n - 1].msg, v.self));
    }
  }

  /** Logs with the same openings list the same conversations, in the same order, with
      the same previews; only the badges can differ. */
  lemma SummariesAgreeButBadges(log: seq<InboxRow>, log': seq<InboxRow>, v: Viewer,
                                parse: JsonParser)
    requires SameOpenings(log, log', v, parse)
    ensures var s, s' := Summaries(log, v, parse), Summaries(log', v, parse);
      |s'| == |s|
      && forall j :: 0 <= j < |s| ==>
           s'[j] == s[j].(unreadCount := UnreadIn(log', |log'|, Key(s[j]), v))
  {
    FirstsAgree(log, log', v, parse, |log|);
  }

  /** The row counts towards conversation `k`'s badge. */
  predicate CountsUnread(m: Message, v: Viewer, k: ConvKey) {
    Counts(m, v) && KeyFor(m, v.self) == k && Inbound(m, v.self)
  }

  lemma {:induction false} UnreadAgree(log: seq<InboxRow>, log': seq<InboxRow>, v: Viewer,
                                       n: nat, k: ConvKey)
    requires n <= |log| && n <= |log'|
    requires forall i :: 0 <= i < n ==> CountsUnread(log'[i].msg, v, k) == CountsUnread(log[i].msg, v, k)
    ensures UnreadIn(log', n, k, v) == UnreadIn(log, n, k, v)
  {
    if n > 0 {
      UnreadAgree(log, log', v, n - 1, k);
    }
  }

  lemma {:induction false} UnreadNone(log: seq<InboxRow>, v: Viewer, n: nat, k: ConvKey)
    requires n <= |log|
    requires forall i :: 0 <= i < n ==> !CountsUnread(log[i].msg, v, k)
    ensures UnreadIn(log, n, k, v) == 0
  {
    if n > 0 {
      UnreadNone(log, v, n - 1, k);
    }
  }

  /** The loop state of `Aggregate` after `i` rows: `order` lists the conversations met so
      far in first-met order, and `grouped` holds their entries with unread counts over
      the rows met so far. */
  ghost predicate Grouped(log: seq<InboxRow>, i: nat, v: Viewer, parse: JsonParser,
                          grouped: map<ConvKey, Conversation>, order: seq<ConvKey>)
    requires i <= |log|
  {
    var f := Firsts(log, i, v);
    && |order| == |f|
    && (forall j :: 0 <= j < |order| ==> order[j] == KeyFor(log[f[j]].msg, v.self))
    && (forall k :: k in grouped <==> Seen(log, i, k, v))
    && (forall j :: 0 <= j < |order| ==>
          order[j] in grouped
          && grouped[order[j]] == Summary(log[f[j]], v, parse, UnreadIn(log, i, order[j], v)))
  }

  lemma SkipStep(log: seq<InboxRow>, i: nat, v: Viewer, parse: JsonParser,
                 grouped: map<ConvKey, Conversation>, order: seq<ConvKey>)
    requires i < |log|
    requires Grouped(log, i, v, parse, grouped, order)
    requires !Counts(log[i].msg, v)
    ensures Grouped(log, i + 1, v, parse, grouped, order)
  {
    assert Firsts(log, i + 1, v) == Firsts(log, i, v);
  }

  lemma NewKeyStep(log: seq<InboxRow>, i: nat, v: Viewer, parse: JsonParser,
                   grouped: map<ConvKey, Conversation>, order: seq<ConvKey>,
                   grouped': map<ConvKey, Conversation>, order': seq<ConvKey>)
    requires i < |log|
    requires Grouped(log, i, v, parse, grouped, order)
    requires Counts(log[i].msg, v)
    requires KeyFor(log[i].msg, v.self) !in grouped
    requires grouped' == grouped[KeyFor(log[i].msg, v.self) :=
      Summary(log[i], v, parse, if Inbound(log[i].msg, v.self) then 1 else 0)]
    requires order' == order + [KeyFor(log[i].msg, v.self)]
    ensures Grouped(log, i + 1, v, parse, grouped', order')
  {
    var key := KeyFor(log[i].msg, v.self);
    var f := Firsts(log, i, v);
    UnseenHasNoUnread(log, i, key, v);
    assert Firsts(log, i + 1, v) == f + [i];
    forall j | 0 <= j < |order|
      ensures order[j] != key
    {
      assert order[j] in grouped;
    }
  }

  lemma OldKeyStep(log: seq<InboxRow>, i: nat, v: Viewer, parse: JsonParser,
                   grouped: map<ConvKey, Conversation>, order: seq<ConvKey>,
                   grouped': map<ConvKey, Conversation>)
    requires i < |log|
    requires Grouped(log, i, v, parse, grouped, order)
    requires Counts(log[i].msg, v)
    requires KeyFor(log[i].msg, v.self) in grouped
    requires var key := KeyFor(log[i].msg, v.self);
      grouped' == if Inbound(log[i].msg, v.self)
                  then grouped[key := grouped[key].(unreadCount := grouped[key].unreadCount + 1)]
                  else grouped
    ensures Grouped(log, i + 1, v, parse, grouped', order)
  {
    assert Firsts(log, i + 1, v) == Firsts(log, i, v);
  }

  lemma GroupedComplete(log: seq<InboxRow>, v: Viewer, parse: JsonParser,
                        grouped: map<ConvKey, Conversation>, order: seq<ConvKey>,
                        convs: seq<Conversation>)
    requires Grouped(log, |log|, v, parse, grouped, order)
    requires |convs| == |order|
    requires forall j :: 0 <= j < |order| ==> order[j] in grouped && convs[j] == grouped[order[j]]
    ensures convs == Summaries(log, v, parse)
  {
  }

  /** `fetchConversations` after the query: walk the log once, keeping a dictionary of
      entries and the order in which their keys were first met (the order
      `Object.values` returns them in). */
  method Aggregate(log: seq<InboxRow>, v: Viewer, parse: JsonParser)
    returns (convs: seq<Conversation>)
    ensures convs == Summaries(log, v, parse)
  {
    var grouped: map<ConvKey, Conversation> := map[];
    var order: seq<ConvKey> := [];
    var i := 0;
    while i < |log|
      invariant 0 <= i <= |log|
      invariant Grouped(log, i, v, parse, grouped, order)
    {
      var m := log[i].msg;
      var isSender := m.senderId == v.self;
      ghost var g0, o0 := grouped, order;
      if VisibleTo(m, v.self) {
        var key := KeyFor(m, v.self);
        if !(key in v.marks && m.createdAt <= v.marks[key]) {
          if key !in grouped {
            grouped := grouped[key := Summary(log[i], v, parse, 0)];
            order := order + [key];
            if !isSender && !m.read {
              grouped := grouped[key := grouped[key].(unreadCount := grouped[key].unreadCount + 1)];
            }
            NewKeyStep(log, i, v, parse, g0, o0, grouped, order);
          } else {
            if !isSender && !m.read {
              grouped := grouped[key := grouped[key].(unreadCount := grouped[key].unreadCount + 1)];
            }
            OldKeyStep(log, i, v, parse, g0, o0, grouped);
          }
        } else {
          SkipStep(log, i, v, parse, grouped, order);
        }
      } else {
        SkipStep(log, i, v, parse, grouped, order);
      }
      i := i + 1;
    }
    convs := seq(|order|, j requires 0 <= j < |order| => grouped[order[j]]);
    GroupedComplete(log, v, parse, grouped, order, convs);
  }

  /** `fetchConversations`: an error answer is only logged and the list shown stays as
      it was; a log replaces the list with the conversations it determines. */
  method FetchConversations(convs: seq<Conversation>, fetched: Result<seq<InboxRow>>,
                            v: Viewer, parse: JsonParser)
    returns (r: seq<Conversation>)
    ensures fetched.Err? ==> r == convs
    ensures fetched.Ok? ==> r == Summaries(fetched.value, v, parse)
  {
    match fetched
    case Err(_) =>
      r := convs;
    case Ok(log) =>
      r := Aggregate(log, v, parse);
  }
}

=== FILE: item_store.dfy ===
/** The listings hook: fetching, creating, updating and deleting listings, and the
    local copy of the list it keeps in step with the store. */
module ItemStore {
  import opened Common
  import opened Text

  /** A column value as the client sees it. */
  datatype Value = Null | Str(s: string) | Num(n: int) | Flag(b: bool)

  /** A row as a JavaScript object: column name to value. */
  type Row = map<string, Value>

  /** `row.id === id` */
  predicate IdIs(row: Row, id: Value) {
    "id" in row && row["id"] == id
  }

  /** The hook's state: the local list, the last error message, and the loading flag. */
  datatype Hook = Hook(items: seq<Row>, error: Option<string>, loading: bool)

  /** `fetchItems`: the answer replaces the list, or its error is recorded and the list
      kept. */
  function FetchItems(h: Hook, answer: Result<seq<Row>>): (r: Hook)
    ensures !r.loading
    ensures answer.Ok? ==> r.items == answer.value && r.error == h.error
    ensures answer.Err? ==> r.items == h.items && r.error == Some(answer.message)
  {
    match answer
    case Ok(data) => h.(items := data, loading := false)
    case Err(msg) => h.(error := Some(msg), loading := false)
  }

  /** `fetchUserItems`: the rows, or an empty list when the query yields no data (an
      error leaves the data missing and is recorded). */
  function FetchUserItems(h: Hook, data: Option<seq<Row>>, error: Option<string>)
    : (r: (Hook, seq<Row>))
    ensures data.None? ==> r.1 == []
    ensures data.Some? ==> r.1 == data.value
    ensures r.0 == h.(loading := false, error := if error.Some? then error else h.error)
  {
    (h.(loading := false, error := if error.Some? then error else h.error),
     match data case Some(rows) => rows case None => [])
  }

  /** `{...row, ...updates}`: the update's columns win, the others stay. */
  function Merge(row: Row, updates: Row): (r: Row)
    ensures r.Keys == row.Keys + updates.Keys
    ensures forall k :: k in updates ==> r[k] == updates[k]
    ensures forall k :: k in row && k !in updates ==> r[k] == row[k]
  {
    row + updates
  }

  /** The local list after a successful update: the matching rows merged, the others
      untouched. */
  function UpdateLocal(items: seq<Row>, id: Value, updates: Row): (r: seq<Row>)
    ensures |r| == |items|
    ensures forall j :: 0 <= j < |items| ==>
      r[j] == if IdIs(items[j], id) then Merge(items[j], updates) else items[j]
  {
    seq(|items|, j requires 0 <= j < |items| =>
      if IdIs(items[j], id) then Merge(items[j], updates) else items[j])
  }

  /** Applying the same update twice changes nothing the first one did not. */
  lemma UpdateLocalIdempotent(items: seq<Row>, id: Value, updates: Row)
    ensures UpdateLocal(UpdateLocal(items, id, updates), id, updates)
         == UpdateLocal(items, id, updates)
  {
    var once := UpdateLocal(items, id, updates);
    forall j | 0 <= j < |items|
      ensures UpdateLocal(once, id, updates)[j] == once[j]
    {
      if IdIs(items[j], id) && IdIs(once[j], id) {
        assert Merge(once[j], updates) == once[j];
      }
    }
  }

  /** A local-list operation's result: the list, and what the call returns or throws. */
  datatype Call<T> = Call(items: seq<Row>, result: Result<T>)

  /** `updateItem`: a store error is thrown before the list is touched. */
  function UpdateItem(items: seq<Row>, id: Value, updates: Row, answer: Result<seq<Row>>)
    : (r: Call<seq<Row>>)
    ensures answer.Err? ==> r == Call(items, Err(answer.message))
    ensures answer.Ok? ==> r == Call(UpdateLocal(items, id, updates), answer)
  {
    match answer
    case Err(msg) => Call(items, Err(msg))
    case Ok(_) => Call(UpdateLocal(items, id, updates), answer)
  }

  /** The storage object named by a public URL: what follows its last `/`. */
  function StorageKey(url: string): (key: string)
    ensures '/' !in key && EndsWith(url, key)
    ensures |key| < |url| ==> url[|url| - |key| - 1] == '/'
    ensures |key| == |url| ==> '/' !in url
  {
    var key := AfterLast(url, '/');
    assert url[|url| - |key|..] == key;
    key
  }

  /** The key of a public URL built as `<bucket URL>/<path>` is the path, as long as the
      path holds no `/`. */
  lemma StorageKeyRoundTrip(base: string, path: string)
    requires '/' !in path
    ensures StorageKey(base + "/" + path) == path
  {
    AfterLastTail(base, '/', path);
  }

  /** What `deleteItem` did: the storage object it asked to remove, the list, and whether
      it threw. */
  datatype DeleteEffect = DeleteEffect(removed: Option<string>, items: seq<Row>,
                                       result: Outcome)

  /** The list update's filter, `i => i.id !== itemId`. */
  function OtherRow(id: Value): Row -> bool {
    (row: Row) => !IdIs(row, id)
  }

  /** `deleteItem`: the image goes first when there is one, and its failure is only
      logged; a record error is thrown with the list untouched; otherwise every row with
      that id leaves the list and the others stay, in order (`DeleteItemExact`). */
  function DeleteItem(items: seq<Row>, id: Value, imageUrl: Option<string>,
                      recordAnswer: Outcome): (r: DeleteEffect)
    ensures r.removed.Some? <==> imageUrl.Some? && imageUrl.value != ""
    ensures r.removed.Some? ==> r.removed.value == StorageKey(imageUrl.value)
    ensures recordAnswer.Failed? ==> r.items == items && r.result == recordAnswer
    ensures recordAnswer.Done? ==>
      r.result == Done
      && (forall j :: 0 <= j < |r.items| ==> !IdIs(r.items[j], id) && r.items[j] in items)
      && (forall j :: 0 <= j < |items| ==> (!IdIs(items[j], id) ==> items[j] in r.items))
      && (forall row :: multiset(r.items)[row] == if !IdIs(row, id) then multiset(items)[row] else 0)
  {
    var removed := match imageUrl
      case Some(url) => if url != "" then Some(StorageKey(url)) else None
      case None => None;
    match recordAnswer
    case Failed(_) => DeleteEffect(removed, items, recordAnswer)
    case Done =>
      var kept := Filter(items, OtherRow(id));
      assert forall row :: multiset(kept)[row] == if !IdIs(row, id) then multiset(items)[row] else 0 by {
        forall row
          ensures multiset(kept)[row] == if !IdIs(row, id) then multiset(items)[row] else 0
        {
          FilterCount(items, OtherRow(id), row);
        }
      }
      DeleteEffect(removed, kept, Done)
  }

  /** Deleting a listing shown once leaves the rows before and after it joined, in
      order. */
  lemma DeleteItemExact(xs: seq<Row>, row: Row, ys: seq<Row>, id: Value,
                        imageUrl: Option<string>)
    requires IdIs(row, id)
    requires forall k :: 0 <= k < |xs| ==> !IdIs(xs[k], id)
    requires forall k :: 0 <= k < |ys| ==> !IdIs(ys[k], id)
    ensures DeleteItem(xs + [row] + ys, id, imageUrl, Done).items == xs + ys
  {
    FilterDropsOne(xs, row, ys, OtherRow(id));
  }

  /** Deleting the same listing again removes nothing more from the list. */
  lemma DeleteItemIdempotent(items: seq<Row>, id: Value, imageUrl: Option<string>,
                             recordAnswer: Outcome)
    ensures var once := DeleteItem(items, id, imageUrl, recordAnswer).items;
      DeleteItem(once, id, imageUrl, recordAnswer).items == once
  {
    FilterIdempotent(items, OtherRow(id));
  }

  /** What `createItem` did: the storage path it uploaded to, the row it inserted, and
      what it returned or threw. */
  datatype CreateEffect = CreateEffect(upload: Option<string>, insert: Option<Row>,
                                       result: Result<seq<Row>>)

  /** The inserted row: the form's columns, then the image URL and the signed-in user,
      which override any same-named form column. */
  function Payload(itemData: Row, imageUrl: Value, u: string): (row: Row)
    ensures row.Keys == itemData.Keys + {"image_url", "user_id"}
    ensures row["image_url"] == imageUrl && row["user_id"] == Str(u)
    ensures forall k :: k in itemData && k != "image_url" && k != "user_id" ==> row[k] == itemData[k]
  {
    itemData + map["image_url" := imageUrl, "user_id" := Str(u)]
  }

  /** `createItem`; `token` stands for the random file stem. */
  function CreateItem(itemData: Row, fileName: Option<string>, token: string, uploaded: Outcome,
                      publicUrl: string, u: string, inserted: Result<seq<Row>>)
    : (r: CreateEffect)
    ensures fileName.None? ==>
      r.upload.None? && r.insert == Some(Payload(itemData, Null, u))
    ensures fileName.Some? && uploaded.Failed? ==>
      r.insert.None? && r.result == Err(uploaded.message)
    ensures fileName.Some? ==>
      r.upload == Some(token + "." + AfterLast(fileName.value, '.'))
    ensures fileName.Some? && uploaded.Done? ==>
      r.insert == Some(Payload(itemData, Str(publicUrl), u))
    ensures r.insert.Some? ==> r.result == inserted
  {
    match fileName
    case None => CreateEffect(None, Some(Payload(itemData, Null, u)), inserted)
    case Some(name) =>
      var path := token + "." + AfterLast(name, '.');
      match uploaded
      case Failed(msg) => CreateEffect(Some(path), None, Err(msg))
      case Done => CreateEffect(Some(path), Some(Payload(itemData, Str(publicUrl), u)), inserted)
  }

  /** The upload path `<token>.<extension>` holds no `/` when neither part does. */
  lemma UploadPathIsFlat(token: string, name: string)
    requires '/' !in token && '/' !in name
    ensures '/' !in token + "." + AfterLast(name, '.')
  {
    var ext := AfterLast(name, '.');
    forall k | 0 <= k < |ext|
      ensures ext[k] != '/'
    {
      assert ext[k] == name[|name| - |ext| + k];
    }
  }

  /** The image a listing was created with is the one its deletion removes: the upload
      path `<token>.<extension>` (`CreateItem`), published as `<bucket URL>/<path>`, is the
      key `DeleteItem` reads back from that URL. */
  lemma DeleteRemovesUploadedImage(token: string, name: string, bucketUrl: string)
    requires '/' !in token && '/' !in name
    ensures var path := token + "." + AfterLast(name, '.');
      StorageKey(bucketUrl + "/" + path) == path
  {
    UploadPathIsFlat(token, name);
    StorageKeyRoundTrip(bucketUrl, token + "." + AfterLast(name, '.'));
  }

  /** Whatever the form holds, a new listing is owned by the user who created it. */
  lemma CreatedListingIsOwnedByCreator(itemData: Row, fileName: Option<string>, token: string,
                                       uploaded: Outcome, publicUrl: string, u: string,
                                       inserted: Result<seq<Row>>)
    ensures var r := CreateItem(itemData, fileName, token, uploaded, publicUrl, u, inserted);
      r.insert.Some? ==> "user_id" in r.insert.value && r.insert.value["user_id"] == Str(u)
  {
  }
}

=== FILE: json_text.dfy ===
/** `JSON.stringify` of the reply annotation object `{id, name, text, isMedia}`, as the
    send handler writes it, and a colon-safe variant that escapes `:` inside string
    values so that the annotation can never contain the frame delimiter. */
module JsonText {
  import opened Common
  import opened Text
  import opened Messages
  import opened ReplyCodec

  const HexDigits: string := "0123456789abcdef"

  predicate ColonFree(s: string) {
    ':' !in s
  }

  /** Every colon is followed by a character, and that character is not a colon. */
  predicate ColonsFollowed(s: string) {
    forall i :: 0 <= i < |s| - 1 && s[i] == ':' ==> s[i + 1] != ':'
  }

  predicate SafeValue(s: string) {
    ColonFree(s) && |s| > 0
  }

  /** How `JSON.stringify` writes one character of a string value.  With `colonSafe` a
      colon is written as the six-character escape `\u003a`, which any JSON parser reads back as `:`. */
  function EscapeChar(c: char, colonSafe: bool): (r: string)
    ensures colonSafe ==> ColonFree(r)
    ensures c != ':' ==> ColonFree(r)
    ensures |r| > 0
  {
    if c == '"' then "\\\""
    else if c == '\\' then "\\\\"
    else if c == '\U{8}' then "\\b"
    else if c == '\U{C}' then "\\f"
    else if c == '\n' then "\\n"
    else if c == '\r' then "\\r"
    else if c == '\t' then "\\t"
    else if (c as int) < 0x20 then "\\u00" + [HexDigits[c as int / 16], HexDigits[c as int % 16]]
    else if colonSafe && c == ':' then "\\u003a"
    else [c]
  }

  /** The characters of a JSON string value, between its quotes. */
  function EscapeString(s: string, colonSafe: bool): (r: string)
    ensures colonSafe ==> ColonFree(r)
    ensures ':' !in s ==> ColonFree(r)
    ensures |r| >= |s|
  {
    if |s| == 0 then "" else EscapeChar(s[0], colonSafe) + EscapeString(s[1..], colonSafe)
  }

  function Quote(s: string, colonSafe: bool): (r: string)
    ensures colonSafe ==> SafeValue(r)
    ensures |r| >= 2 && r[0] == '"' && r[|r| - 1] == '"'
  {
    "\"" + EscapeString(s, colonSafe) + "\""
  }

  /** A non-negative integer as `JSON.stringify` writes a JavaScript number. */
  function Decimal(n: nat): (r: string)
    ensures SafeValue(r)
    ensures forall i :: 0 <= i < |r| ==> '0' <= r[i] <= '9'
  {
    if n < 10 then [HexDigits[n]] else Decimal(n / 10) + [HexDigits[n % 10]]
  }

  function IdJson(id: MsgId, colonSafe: bool): (r: string)
    ensures colonSafe ==> SafeValue(r)
  {
    match id
    case Temp(stamp) => Decimal(stamp)
    case Server(token) => Quote(token, colonSafe)
  }

  /** `"key":value`, for a key that needs no escaping */
  function Member(key: string, value: string): string {
    "\"" + key + "\":" + value
  }

  function MetaJson(meta: ReplyMeta, colonSafe: bool): string {
    "{" + Member("id", IdJson(meta.id, colonSafe))
    + "," + Member("name", Quote(meta.name, colonSafe))
    + "," + Member("text", Quote(meta.text, colonSafe))
    + "," + Member("isMedia", if meta.isMedia then "true" else "false")
    + "}"
  }

  /** `JSON.stringify(replyMeta)` as the send handler calls it. */
  function Stringify(meta: ReplyMeta): string {
    MetaJson(meta, false)
  }

  /** The corrected serialiser: string values have their colons escaped. */
  function StringifyColonSafe(meta: ReplyMeta): string {
    MetaJson(meta, true)
  }

  lemma ConcatFollowed(a: string, b: string)
    requires ColonsFollowed(a) && ColonsFollowed(b)
    requires |a| > 0 && |b| > 0 && a[|a| - 1] == ':' ==> b[0] != ':'
    ensures ColonsFollowed(a + b)
  {
    var s := a + b;
    forall i | 0 <= i < |s| - 1 && s[i] == ':'
      ensures s[i + 1] != ':'
    {
      if i + 1 < |a| {
        assert s[i] == a[i] && s[i + 1] == a[i + 1];
      } else if i + 1 == |a| {
        assert s[i] == a[|a| - 1] && s[i + 1] == b[0];
      } else {
        assert s[i] == b[i - |a|] && s[i + 1] == b[i + 1 - |a|];
      }
    }
  }

  lemma MemberFollowed(key: string, value: string)
    requires ':' !in key
    requires SafeValue(value)
    ensures ColonsFollowed(Member(key, value))
    ensures Member(key, value)[|Member(key, value)| - 1] != ':'
  {
    var pre := "\"" + key + "\"";
    var q := pre + ":";
    assert ':' !in pre;
    forall i | 0 <= i < |q| - 1
      ensures q[i] != ':'
    {
      assert q[i] == pre[i];
    }
    ConcatFollowed(q, value);
    assert Member(key, value) == q + value;
    assert Member(key, value)[|Member(key, value)| - 1] == value[|value| - 1];
  }

  /** A string whose colons are all followed by a non-colon, and which does not end in
      a colon, keeps the delimiter out even with two more colons appended. */
  lemma FollowedIsDelimiterFree(json: string)
    requires ColonsFollowed(json)
    requires |json| > 0 && json[|json| - 1] != ':'
    ensures DelimiterFree(json + "::")
  {
    var s := json + "::";
    forall k | 0 <= k < |s|
      ensures !OccursAt(s, Delimiter, k)
    {
      if k + 3 <= |s| {
        assert s[k] == json[k];
        if k + 1 < |json| {
          assert s[k + 1] == json[k + 1];
        }
        assert s[k] != ':' || s[k + 1] != ':';
        assert s[k..k + 3][0] == s[k] && s[k..k + 3][1] == s[k + 1];
      }
    }
  }

  /** With colons escaped, the serialised annotation never disturbs the frame: the
      delimiter does not occur in it, not even across its end. */
  lemma {:induction false} ColonSafeStringifyIsDelimiterFree(meta: ReplyMeta)
    ensures DelimiterFree(StringifyColonSafe(meta) + "::")
  {
    var m1 := Member("id", IdJson(meta.id, true));
    var m2 := Member("name", Quote(meta.name, true));
    var m3 := Member("text", Quote(meta.text, true));
    var m4 := Member("isMedia", if meta.isMedia then "true" else "false");
    MemberFollowed("id", IdJson(meta.id, true));
    MemberFollowed("name", Quote(meta.name, true));
    MemberFollowed("text", Quote(meta.text, true));
    MemberFollowed("isMedia", if meta.isMedia then "true" else "false");
    var p1 := "{" + m1;
    ConcatFollowed("{", m1);
    var p2 := p1 + ",";
    ConcatFollowed(p1, ",");
    var p3 := p2 + m2;
    ConcatFollowed(p2, m2);
    var p4 := p3 + ",";
    ConcatFollowed(p3, ",");
    var p5 := p4 + m3;
    ConcatFollowed(p4, m3);
    var p6 := p5 + ",";
    ConcatFollowed(p5, ",");
    var p7 := p6 + m4;
    ConcatFollowed(p6, m4);
    var p8 := p7 + "}";
    ConcatFollowed(p7, "}");
    assert StringifyColonSafe(meta) == p8;
    FollowedIsDelimiterFree(p8);
  }

  /** No three colons in a row: the delimiter test character by character. */
  predicate NoTriple(s: string) {
    forall i :: 0 <= i < |s| - 2 ==> !(s[i] == ':' && s[i + 1] == ':' && s[i + 2] == ':')
  }

  lemma NoTripleIsDelimiterFree(s: string)
    ensures NoTriple(s) <==> DelimiterFree(s)
  {
    forall k | 0 <= k < |s|
      ensures OccursAt(s, Delimiter, k)
              <==> k < |s| - 2 && s[k] == ':' && s[k + 1] == ':' && s[k + 2] == ':'
    {
      if k + 3 <= |s| {
        assert s[k..k + 3] == [s[k], s[k + 1], s[k + 2]];
      }
    }
    if NoTriple(s) {
      forall k | 0 <= k < |s|
        ensures !OccursAt(s, Delimiter, k)
      {
        if k < |s| - 2 {
          assert !(s[k] == ':' && s[k + 1] == ':' && s[k + 2] == ':');
        }
      }
    }
    if DelimiterFree(s) {
      forall i | 0 <= i < |s| - 2
        ensures !(s[i] == ':' && s[i + 1] == ':' && s[i + 2] == ':')
      {
        assert !OccursAt(s, Delimiter, i);
      }
    }
  }

  /** Joining two strings without three colons in a row creates none, when a non-colon
      stands at the seam. */
  lemma ConcatNoTriple(a: string, b: string)
    requires NoTriple(a) && NoTriple(b)
    requires (|a| > 0 && a[|a| - 1] != ':') || (|b| > 0 && b[0] != ':')
    ensures NoTriple(a + b)
  {
    var s := a + b;
    forall i | 0 <= i < |s| - 2
      ensures !(s[i] == ':' && s[i + 1] == ':' && s[i + 2] == ':')
    {
      if i + 2 < |a| {
        assert s[i] == a[i] && s[i + 1] == a[i + 1] && s[i + 2] == a[i + 2];
      } else if i >= |a| {
        assert s[i] == b[i - |a|] && s[i + 1] == b[i + 1 - |a|] && s[i + 2] == b[i + 2 - |a|];
      } else {
        assert s[|a| - 1] == a[|a| - 1] && s[|a|] == b[0];
      }
    }
  }

  /** An escaped string starts with two colons only when the original does. */
  lemma EscapeHead(s: string)
    ensures var e := EscapeString(s, false);
      |e| > 0 && e[0] == ':' ==> |s| > 0 && s[0] == ':'
    ensures var e := EscapeString(s, false);
      |e| > 1 && e[0] == ':' && e[1] == ':' ==> |s| > 1 && s[0] == ':' && s[1] == ':'
  {
    if |s| > 0 {
      var c := EscapeChar(s[0], false);
      var rest := EscapeString(s[1..], false);
      assert EscapeString(s, false) == c + rest;
      if s[0] != ':' {
        assert c[0] in c;
      } else {
        assert c == ":";
        var t := s[1..];
        if |t| > 0 {
          var d := EscapeChar(t[0], false);
          assert rest == d + EscapeString(t[1..], false);
          if t[0] != ':' {
            assert d[0] in d;
          }
        }
      }
    }
  }

  /** Escaping as written adds no colons and turns each colon into one colon, so it
      creates no run of three. */
  lemma {:induction false} EscapeNoTriple(s: string)
    requires NoTriple(s)
    ensures NoTriple(EscapeString(s, false))
  {
    if |s| > 0 {
      var t := s[1..];
      assert NoTriple(t) by {
        forall i | 0 <= i < |t| - 2
          ensures !(t[i] == ':' && t[i + 1] == ':' && t[i + 2] == ':')
        {
          assert t[i] == s[i + 1] && t[i + 1] == s[i + 2] && t[i + 2] == s[i + 3];
        }
      }
      EscapeNoTriple(t);
      var c := EscapeChar(s[0], false);
      var rest := EscapeString(t, false);
      assert EscapeString(s, false) == c + rest;
      if s[0] != ':' {
        assert c[|c| - 1] in c;
        ConcatNoTriple(c, rest);
      } else {
        EscapeHead(t);
        var e := c + rest;
        forall i | 0 <= i < |e| - 2
          ensures !(e[i] == ':' && e[i + 1] == ':' && e[i + 2] == ':')
        {
          if i == 0 {
            assert e[1] == rest[0] && e[2] == rest[1];
            assert !(s[0] == ':' && s[1] == ':' && s[2] == ':');
          } else {
            assert e[i] == rest[i - 1] && e[i + 1] == rest[i] && e[i + 2] == rest[i + 1];
          }
        }
      }
    }
  }

  /** A quoted string value as written has no run of three colons when its text has
      none, and it starts and ends with a quote. */
  lemma QuoteNoTriple(t: string)
    requires NoTriple(t)
    ensures NoTriple(Quote(t, false))
  {
    var e := EscapeString(t, false);
    EscapeNoTriple(t);
    ConcatNoTriple("\"", e);
    ConcatNoTriple("\"" + e, "\"");
  }

  /** A member `"key":value` has no run of three colons when its value has none and
      does not start with a colon. */
  lemma MemberNoTriple(key: string, value: string)
    requires ':' !in key
    requires NoTriple(value) && |value| > 0 && value[0] != ':'
    ensures NoTriple(Member(key, value))
    ensures Member(key, value)[|Member(key, value)| - 1] == value[|value| - 1]
  {
    var pre := "\"" + key + "\"";
    assert ':' !in pre;
    ConcatNoTriple(pre, ":");
    ConcatNoTriple(pre + ":", value);
    assert Member(key, value) == pre + ":" + value;
  }

  /** As written, the serialised annotation keeps the frame intact exactly when no
      string in it holds the delimiter: it then has no `:::`, not even across its end.
      (`QuotedDelimiterSurvives` is the other direction for the quoted text.) */
  lemma {:induction false} StringifyIsDelimiterFree(meta: ReplyMeta)
    requires DelimiterFree(meta.name) && DelimiterFree(meta.text)
    requires meta.id.Server? ==> DelimiterFree(meta.id.token)
    ensures DelimiterFree(Stringify(meta) + "::")
  {
    NoTripleIsDelimiterFree(meta.name);
    NoTripleIsDelimiterFree(meta.text);
    var id := IdJson(meta.id, false);
    match meta.id {
      case Temp(_) =>
        assert id[0] in id;
        assert id[|id| - 1] in id;
      case Server(token) =>
        NoTripleIsDelimiterFree(token);
        QuoteNoTriple(token);
    }
    var name := Quote(meta.name, false);
    var text := Quote(meta.text, false);
    var flag := if meta.isMedia then "true" else "false";
    QuoteNoTriple(meta.name);
    QuoteNoTriple(meta.text);
    MemberNoTriple("id", id);
    MemberNoTriple("name", name);
    MemberNoTriple("text", text);
    MemberNoTriple("isMedia", flag);
    var m1 := Member("id", id);
    var m2 := Member("name", name);
    var m3 := Member("text", text);
    var m4 := Member("isMedia", flag);
    var p1 := "{" + m1;
    ConcatNoTriple("{", m1);
    ConcatNoTriple(p1, ",");
    var p3 := p1 + "," + m2;
    ConcatNoTriple(p1 + ",", m2);
    ConcatNoTriple(p3, ",");
    var p5 := p3 + "," + m3;
    ConcatNoTriple(p3 + ",", m3);
    ConcatNoTriple(p5, ",");
    var p7 := p5 + "," + m4;
    ConcatNoTriple(p5 + ",", m4);
    var json := p7 + "}";
    ConcatNoTriple(p7, "}");
    assert Stringify(meta) == json;
    ConcatNoTriple(json, "::");
    NoTripleIsDelimiterFree(json + "::");
  }

  /** Escaping works character by character. */
  lemma {:induction false} EscapeConcat(a: string, b: string, colonSafe: bool)
    ensures EscapeString(a + b, colonSafe) == EscapeString(a, colonSafe) + EscapeString(b, colonSafe)
  {
    if |a| == 0 {
      assert a + b == b;
    } else {
      assert (a + b)[0] == a[0];
      assert (a + b)[1..] == a[1..] + b;
      EscapeConcat(a[1..], b, colonSafe);
    }
  }

  /** A string of ordinary characters is written unchanged inside its quotes. */
  lemma {:induction false} PlainStringUnescaped(s: string, colonSafe: bool)
    requires forall i :: 0 <= i < |s| ==>
      s[i] != '"' && s[i] != '\\' && (s[i] as int) >= 0x20 && !(colonSafe && s[i] == ':')
    ensures EscapeString(s, colonSafe) == s
  {
    if |s| > 0 {
      PlainStringUnescaped(s[1..], colonSafe);
      assert s == [s[0]] + s[1..];
    }
  }

  lemma EscapeDelimiter()
    ensures EscapeString(Delimiter, false) == Delimiter
  {
    PlainStringUnescaped(Delimiter, false);
  }

  lemma EscapeAroundDelimiter(before: string, after: string)
    ensures EscapeString(before + Delimiter + after, false)
         == EscapeString(before, false) + Delimiter + EscapeString(after, false)
  {
    EscapeDelimiter();
    EscapeConcat(before, Delimiter, false);
    EscapeConcat(before + Delimiter, after, false);
  }

  /** Escaping as written keeps a delimiter in the text. */
  lemma {:induction false} EscapeKeepsDelimiter(t: string)
    requires Occurs(t, Delimiter)
    ensures Occurs(EscapeString(t, false), Delimiter)
  {
    var k: nat :| OccursAt(t, Delimiter, k);
    var before, after := t[..k], t[k + 3..];
    assert t == before + Delimiter + after;
    EscapeAroundDelimiter(before, after);
    OccursBetween(EscapeString(before, false), Delimiter, EscapeString(after, false));
  }

  /** A quoted string keeps a delimiter its text holds. */
  lemma {:induction false} QuoteKeepsDelimiter(t: string)
    requires Occurs(t, Delimiter)
    ensures Occurs(Quote(t, false), Delimiter)
  {
    var e := EscapeString(t, false);
    EscapeKeepsDelimiter(t);
    OccursInConcat("\"", e, Delimiter);
    OccursInConcat("\"" + e, "\"", Delimiter);
  }

  /** The serialiser as written copies a delimiter in the quoted text into the JSON. */
  lemma {:induction false} QuotedDelimiterSurvives(meta: ReplyMeta)
    requires Occurs(meta.text, Delimiter)
    ensures Occurs(Stringify(meta), Delimiter)
  {
    var q := Quote(meta.text, false);
    QuoteKeepsDelimiter(meta.text);
    var m3 := Member("text", q);
    OccursInConcat("\"" + "text" + "\":", q, Delimiter);
    var pre := "{" + Member("id", IdJson(meta.id, false))
      + "," + Member("name", Quote(meta.name, false)) + ",";
    var post := "," + Member("isMedia", if meta.isMedia then "true" else "false") + "}";
    OccursInConcat(pre, m3, Delimiter);
    OccursInConcat(pre + m3, post, Delimiter);
    assert Stringify(meta) == pre + m3 + post;
  }

  /** The encoder as written: replying to a message whose quoted preview contains the
      delimiter produces a body that every JSON parser rejects at the first delimiter,
      so the body is shown raw instead of the typed text. */
  lemma {:induction false} QuotedDelimiterFailsOpen(meta: ReplyMeta, typed: string,
                                                    parse: JsonParser)
    requires Occurs(meta.text, Delimiter)
    requires forall p :: p < Stringify(meta) ==> parse(p).None?
    ensures Decode(EncodeReply(Stringify(meta), typed), parse)
         == Decoded(Null, EncodeReply(Stringify(meta), typed))
  {
    QuotedDelimiterSurvives(meta);
    var k: nat :| OccursAt(Stringify(meta), Delimiter, k);
    DelimiterInsideJsonFailsOpen(Stringify(meta), typed, parse, k);
  }

  /** The concrete case: a reply "hi" to a message "a:::b" from the partner. */
  lemma {:induction false} QuotingDelimiterBreaksReply(parse: JsonParser)
    requires forall p :: p < Stringify(ReplyMeta(Server("m1"), "Bob", "a:::b", false))
                         ==> parse(p).None?
    ensures var original := Message(Server("m1"), "item1", "bob", "alice", "a:::b", None,
                                    0, false, false, false);
            var body := EncodeReply(Stringify(ReplyMetaFor(original, "alice", "Bob", parse)), "hi");
            Decode(body, parse) == Decoded(Null, body) && Decode(body, parse).content != "hi"
  {
    var original := Message(Server("m1"), "item1", "bob", "alice", "a:::b", None,
                            0, false, false, false);
    assert !StartsWith("a:::b", ReplyTag);
    var meta := ReplyMetaFor(original, "alice", "Bob", parse);
    assert meta == ReplyMeta(Server("m1"), "Bob", "a:::b", false);
    assert OccursAt("a:::b", Delimiter, 1);
    QuotedDelimiterFailsOpen(meta, "hi", parse);
  }

  /** The corrected encoder: whatever the quote contains, a reply whose annotation the
      parser reads back displays the annotation and exactly the typed text. */
  lemma {:induction false} ColonSafeReplyRoundTrip(meta: ReplyMeta, typed: string,
                                                   parse: JsonParser)
    requires parse(StringifyColonSafe(meta)) == Some(Annotation(meta))
    ensures Decode(EncodeReply(StringifyColonSafe(meta), typed), parse)
         == Decoded(Annotation(meta), typed)
  {
    ColonSafeStringifyIsDelimiterFree(meta);
    ReplyRoundTrip(StringifyColonSafe(meta), typed, parse, meta);
  }
}

=== FILE: live_feed.dfy ===
/** The open thread's message list under realtime inserts and optimistic sends: a sent
    message shows at once under a temporary id, the store's echo of it takes its place,
    and a rejected insert removes it again. */
module LiveFeed {
  import opened Common
  import opened Text
  import opened Messages
  import opened ReplyCodec
  import opened JsonText

  /** The list already holds a row with this id. */
  predicate HasId(ms: seq<Message>, id: MsgId) {
    exists k :: 0 <= k < |ms| && ms[k].id == id
  }

  /** An optimistic entry (temporary id) with exactly this body. */
  predicate IsPending(m: Message, body: string) {
    m.id.Temp? && m.body == body
  }

  /** `findIndex` of the first optimistic entry with this body, searching from `from`. */
  function FindPending(ms: seq<Message>, body: string, from: nat): (r: Option<nat>)
    requires from <= |ms|
    ensures r.Some? ==>
      from <= r.value < |ms| && IsPending(ms[r.value], body)
      && forall k :: from <= k < r.value ==> !IsPending(ms[k], body)
    ensures r.None? ==> forall k :: from <= k < |ms| ==> !IsPending(ms[k], body)
    decreases |ms| - from
  {
    if from == |ms| then None
    else if IsPending(ms[from], body) then Some(from)
    else FindPending(ms, body, from + 1)
  }

  /** The `setMessages` updater for an insert of the open pair: a known id changes
      nothing; the user's own row takes the place of the first optimistic entry with the
      same body; anything else is appended. */
  function Reduce(prev: seq<Message>, ev: Message, u: UserId): (r: seq<Message>)
    ensures HasId(r, ev.id)
    ensures HasId(prev, ev.id) ==> r == prev
    ensures r == prev + [ev] || |r| == |prev|
    ensures |r| == |prev| ==> forall k :: 0 <= k < |prev| ==>
      r[k] == prev[k] || (r[k] == ev && ev.senderId == u && IsPending(prev[k], ev.body))
    ensures !HasId(prev, ev.id) && |r| == |prev| ==>
      && ev.senderId == u
      && exists i :: 0 <= i < |prev| && IsPending(prev[i], ev.body)
           && (forall k :: 0 <= k < i ==> !IsPending(prev[k], ev.body)) && r == prev[i := ev]
  {
    if HasId(prev, ev.id) then prev
    else if ev.senderId == u && FindPending(prev, ev.body, 0).Some? then
      var i := FindPending(prev, ev.body, 0).value;
      assert prev[i := ev][i] == ev;
      assert IsPending(prev[i], ev.body);
      prev[i := ev]
    else
      assert (prev + [ev])[|prev|] == ev;
      prev + [ev]
  }

  /** The realtime insert belongs to the open conversation: the channel subscribes to
      the listing and the handler checks the pair. */
  predicate ForOpenPair(ev: Message, u: UserId, active: Active) {
    ev.itemId == active.key.itemId && InPair(ev, u, active.key.partner)
  }

  /** The list after the insert, and the single-row mark-read it issues, if any. */
  datatype InsertEffect = InsertEffect(messages: seq<Message>, markRead: Option<MsgId>)

  function OnInsert(prev: seq<Message>, ev: Message, u: UserId, active: Active): (r: InsertEffect)
    ensures !ForOpenPair(ev, u, active) ==> r == InsertEffect(prev, None)
    ensures ForOpenPair(ev, u, active) ==> r.messages == Reduce(prev, ev, u)
    ensures r.markRead.Some? <==> ForOpenPair(ev, u, active) && ev.receiverId == u
    ensures r.markRead.Some? ==> r.markRead.value == ev.id
  {
    if !ForOpenPair(ev, u, active) then InsertEffect(prev, None)
    else InsertEffect(Reduce(prev, ev, u), if ev.receiverId == u then Some(ev.id) else None)
  }

  /** Delivering the same insert twice leaves the list as delivering it once; the
      repeated mark-read sets a flag that is already set. */
  lemma OnInsertIdempotent(prev: seq<Message>, ev: Message, u: UserId, active: Active)
    ensures var once := OnInsert(prev, ev, u, active);
      OnInsert(once.messages, ev, u, active) == once
  {
  }

  /** Inserts keep the ids of the list distinct. */
  lemma ReduceKeepsIdsDistinct(prev: seq<Message>, ev: Message, u: UserId)
    requires DistinctIds(prev)
    ensures DistinctIds(Reduce(prev, ev, u))
  {
    var r := Reduce(prev, ev, u);
    if !HasId(prev, ev.id) {
      forall i, j | 0 <= i < j < |r|
        ensures r[i].id != r[j].id
      {
        if i < |prev| && r[i] == ev {
          assert j >= |prev| || r[j] == prev[j];
        }
      }
    }
  }

  /** The store's echo of a sent message replaces its optimistic entry in place, however
      many rows arrived after it, provided no earlier entry is pending with the same
      body. */
  lemma ConfirmReplacesPending(xs: seq<Message>, p: Message, ys: seq<Message>, ev: Message,
                               u: UserId)
    requires IsPending(p, ev.body)
    requires ev.senderId == u
    requires !HasId(xs + [p] + ys, ev.id)
    requires forall k :: 0 <= k < |xs| ==> !IsPending(xs[k], ev.body)
    ensures Reduce(xs + [p] + ys, ev, u) == xs + [ev] + ys
  {
    var prev := xs + [p] + ys;
    assert prev[|xs|] == p;
    assert forall k :: 0 <= k < |xs| ==> prev[k] == xs[k];
    assert prev[|xs| := ev] == xs + [ev] + ys;
  }

  /** A row from the partner with a new id is appended. */
  lemma PartnerRowAppended(prev: seq<Message>, ev: Message, u: UserId)
    requires ev.senderId != u
    requires !HasId(prev, ev.id)
    ensures Reduce(prev, ev, u) == prev + [ev]
  {
  }

  /** The composer: the draft, the message being replied to, and the rows shown. */
  datatype Composer = Composer(draft: string, replyingTo: Option<Message>,
                               messages: seq<Message>)

  /** The body sent for `typed`: framed with the quote annotation when replying, the
      annotation serialised by `JSON.stringify` as the send handler does. */
  function OutgoingBody(typed: string, replyingTo: Option<Message>, active: Active, u: UserId,
                        parse: JsonParser): (body: string)
    ensures replyingTo.None? ==> body == typed
    ensures replyingTo.Some? ==>
      && StartsWith(body, ReplyTag) && EndsWith(body, typed)
      && |ReplyTag| + |Delimiter| + |typed| <= |body|
      && body[|ReplyTag|..|body| - |Delimiter| - |typed|]
         == Stringify(ReplyMetaFor(replyingTo.value, u, active.partnerName, parse))
  {
    match replyingTo
    case None => typed
    case Some(original) =>
      EncodeReply(Stringify(ReplyMetaFor(original, u, active.partnerName, parse)), typed)
  }

  /** The corrected outgoing body: the annotation serialised with its colons escaped. */
  function OutgoingBodyFixed(typed: string, replyingTo: Option<Message>, active: Active,
                             u: UserId, parse: JsonParser): (body: string)
    ensures replyingTo.None? ==> body == typed
    ensures replyingTo.Some? ==>
      && StartsWith(body, ReplyTag) && EndsWith(body, typed)
      && |ReplyTag| + |Delimiter| + |typed| <= |body|
      && body[|ReplyTag|..|body| - |Delimiter| - |typed|]
         == StringifyColonSafe(ReplyMetaFor(replyingTo.value, u, active.partnerName, parse))
  {
    match replyingTo
    case None => typed
    case Some(original) =>
      EncodeReply(StringifyColonSafe(ReplyMetaFor(original, u, active.partnerName, parse)), typed)
  }

  /** The optimistic entry shown while the insert is in flight, stamped with the clock. */
  function PendingRow(body: string, active: Active, u: UserId, now: nat): (m: Message)
    ensures m.id == Temp(now) && IsPending(m, body)
    ensures m.senderId == u && m.receiverId == active.key.partner && m.itemId == active.key.itemId
  {
    Message(Temp(now), active.key.itemId, u, active.key.partner, body, None, now,
            false, false, false)
  }

  /** The composer after a send, and the insert it issues, if any. */
  datatype SendStep = SendStep(view: Composer, insert: Option<NewRow>)

  /** `handleSendMessage` up to the insert; `now` stands for `Date.now()`. */
  function Send(view: Composer, active: Option<Active>, u: UserId, now: nat, parse: JsonParser)
    : (r: SendStep)
    ensures r.insert.Some? <==> !IsBlank(view.draft) && active.Some?
    ensures r.insert.None? ==> r.view == view
    ensures r.insert.Some? ==>
      var body := OutgoingBody(view.draft, view.replyingTo, active.value, u, parse);
      && r.insert.value == NewRow(u, active.value.key.partner, active.value.key.itemId, body, None)
      && r.view == Composer("", None, view.messages + [PendingRow(body, active.value, u, now)])
  {
    if IsBlank(view.draft) || active.None? then SendStep(view, None)
    else
      var a := active.value;
      var body := OutgoingBody(view.draft, view.replyingTo, a, u, parse);
      SendStep(Composer("", None, view.messages + [PendingRow(body, a, u, now)]),
               Some(NewRow(u, a.key.partner, a.key.itemId, body, None)))
  }

  /** How the insert answered: stored, rejected with an error value, or thrown. */
  datatype InsertAnswer = Stored | Rejected(message: string) | Threw(message: string)

  /** The rollback's test, `msg.id !== optimisticMsg.id`. */
  function NotPending(now: nat): Message -> bool {
    (m: Message) => m.id != Temp(now)
  }

  /** The rollback: every entry carrying the optimistic id is dropped. */
  function Rollback(ms: seq<Message>, now: nat): (r: seq<Message>)
    ensures !HasId(r, Temp(now))
    ensures forall k :: 0 <= k < |ms| && ms[k].id != Temp(now) ==> ms[k] in r
  {
    var r := Filter(ms, NotPending(now));
    assert forall k :: 0 <= k < |r| ==> r[k].id != Temp(now);
    r
  }

  /** The list once the insert has answered: only an error value rolls back; a thrown
      error is logged and the optimistic entry stays. */
  function AfterSend(ms: seq<Message>, now: nat, answer: InsertAnswer): (r: seq<Message>)
    ensures answer.Rejected? ==> r == Rollback(ms, now)
    ensures !answer.Rejected? ==> r == ms
  {
    if answer.Rejected? then Rollback(ms, now) else ms
  }

  lemma RollbackKeepsOthers(ms: seq<Message>, now: nat)
    requires !HasId(ms, Temp(now))
    ensures Rollback(ms, now) == ms
  {
    assert forall k :: 0 <= k < |ms| ==> NotPending(now)(ms[k]);
    FilterKeepsAll(ms, NotPending(now));
  }

  /** A rejected insert removes exactly its optimistic entry, keeping the rows that
      arrived before and after it in order. */
  lemma RollbackRemovesOnlyPending(xs: seq<Message>, p: Message, ys: seq<Message>, now: nat)
    requires p.id == Temp(now)
    requires !HasId(xs, Temp(now)) && !HasId(ys, Temp(now))
    ensures Rollback(xs + [p] + ys, now) == xs + ys
  {
    var keep := NotPending(now);
    assert Filter([p], keep) == [] by {
      assert [p][1..] == [];
    }
    calc {
      Rollback(xs + [p] + ys, now);
      Filter(xs + [p] + ys, keep);
      { FilterConcat(xs + [p], ys, keep); }
      Filter(xs + [p], keep) + Filter(ys, keep);
      { FilterConcat(xs, [p], keep); }
      Filter(xs, keep) + Filter([p], keep) + Filter(ys, keep);
      { RollbackKeepsOthers(xs, now); RollbackKeepsOthers(ys, now); }
      xs + [] + ys;
    }
    assert xs + [] + ys == xs + ys;
  }

  /** Sending and having the insert rejected restores the rows shown before the send. */
  lemma RejectedSendRestoresList(view: Composer, active: Active, u: UserId, now: nat,
                                 parse: JsonParser, msg: string)
    requires !IsBlank(view.draft)
    requires !HasId(view.messages, Temp(now))
    ensures AfterSend(Send(view, Some(active), u, now, parse).view.messages, now, Rejected(msg))
         == view.messages
  {
    var p := PendingRow(OutgoingBody(view.draft, view.replyingTo, active, u, parse), active, u, now);
    RollbackRemovesOnlyPending(view.messages, p, [], now);
    assert view.messages + [p] + [] == view.messages + [p];
    assert view.messages + [] == view.messages;
  }

  /** As written, a reply displays the quote annotation and exactly what its sender typed
      when none of the annotation's strings (quoted text, name, id) holds the delimiter
      and the parser reads the annotation back. */
  lemma SentReplyDisplaysAsTyped(typed: string, original: Message, active: Active, u: UserId,
                                 parse: JsonParser)
    requires var meta := ReplyMetaFor(original, u, active.partnerName, parse);
      && DelimiterFree(meta.name) && DelimiterFree(meta.text)
      && (meta.id.Server? ==> DelimiterFree(meta.id.token))
      && parse(Stringify(meta)) == Some(Annotation(meta))
    ensures Decode(OutgoingBody(typed, Some(original), active, u, parse), parse)
         == Decoded(Annotation(ReplyMetaFor(original, u, active.partnerName, parse)), typed)
  {
    var meta := ReplyMetaFor(original, u, active.partnerName, parse);
    StringifyIsDelimiterFree(meta);
    ReplyRoundTrip(Stringify(meta), typed, parse, meta);
  }

  /** As written, a reply whose quote contains the delimiter is shown raw, annotation and
      all, to both participants. */
  lemma SentReplyQuotingDelimiterShowsRaw(typed: string, original: Message, active: Active,
                                          u: UserId, parse: JsonParser)
    requires Occurs(ReplyMetaFor(original, u, active.partnerName, parse).text, Delimiter)
    requires forall p :: p < Stringify(ReplyMetaFor(original, u, active.partnerName, parse))
                         ==> parse(p).None?
    ensures var body := OutgoingBody(typed, Some(original), active, u, parse);
      Decode(body, parse) == Decoded(Null, body)
  {
    QuotedDelimiterFailsOpen(ReplyMetaFor(original, u, active.partnerName, parse), typed, parse);
  }

  /** With the corrected body, every reply displays the quote annotation and exactly what
      its sender typed, whatever the quote contains, provided the parser reads back what
      the serialiser wrote. */
  lemma FixedReplyDisplaysAsTyped(typed: string, original: Message, active: Active, u: UserId,
                                  parse: JsonParser)
    requires var meta := ReplyMetaFor(original, u, active.partnerName, parse);
      parse(StringifyColonSafe(meta)) == Some(Annotation(meta))
    ensures Decode(OutgoingBodyFixed(typed, Some(original), active, u, parse), parse)
         == Decoded(Annotation(ReplyMetaFor(original, u, active.partnerName, parse)), typed)
  {
    ColonSafeReplyRoundTrip(ReplyMetaFor(original, u, active.partnerName, parse), typed, parse);
  }
}

=== FILE: marketplace.dfy ===
/** The marketplace feed: a filtered, sorted query over the listings, read nine rows at a
    time, with "load more" appending the next page. */
module Marketplace {
  import opened Common

  /** Three rows of three cards. */
  const ItemsPerPage: nat := 9

  /** The category that means "no category filter". */
  const AllCategories := "All"

  /** `.order(column, {ascending})` */
  datatype Order = Order(column: string, ascending: bool)

  /** The query `fetchItems` sends: an inclusive row range, the optional category and
      title filters, and the optional ordering. */
  datatype Query = Query(from: nat, to: nat, category: Option<string>,
                         titlePattern: Option<string>, order: Option<Order>)

  /** The page a fetch asks for: the next one when loading more, else the first. */
  function TargetPage(page: nat, loadMore: bool): (p: nat)
    ensures loadMore ==> p == page + 1
    ensures !loadMore ==> p == 0
  {
    if loadMore then page + 1 else 0
  }

  /** The sort menu's choices; any other value leaves the rows unordered. */
  function SortFor(sortBy: string): (o: Option<Order>)
    ensures sortBy == "newest" ==> o == Some(Order("created_at", false))
    ensures sortBy == "price_asc" ==> o == Some(Order("price", true))
    ensures sortBy == "price_desc" ==> o == Some(Order("price", false))
    ensures o.None? <==> sortBy !in {"newest", "price_asc", "price_desc"}
  {
    if sortBy == "newest" then Some(Order("created_at", false))
    else if sortBy == "price_asc" then Some(Order("price", true))
    else if sortBy == "price_desc" then Some(Order("price", false))
    else None
  }

  function BuildQuery(page: nat, loadMore: bool, category: string, search: string,
                      sortBy: string): (q: Query)
    ensures q.from == TargetPage(page, loadMore) * ItemsPerPage
    ensures q.to + 1 - q.from == ItemsPerPage
    ensures q.category.Some? <==> category != AllCategories
    ensures q.category.Some? ==> q.category.value == category
    ensures q.titlePattern.Some? <==> search != ""
    ensures q.titlePattern.Some? ==> q.titlePattern.value == "%" + search + "%"
    ensures q.order == SortFor(sortBy)
  {
    var from := TargetPage(page, loadMore) * ItemsPerPage;
    Query(from, from + ItemsPerPage - 1,
          if category != AllCategories then Some(category) else None,
          if search != "" then Some("%" + search + "%") else None,
          SortFor(sortBy))
  }

  /** Consecutive pages meet without a gap or an overlap. */
  lemma PagesTile(page: nat, category: string, search: string, sortBy: string)
    ensures BuildQuery(page + 1, true, category, search, sortBy).from
         == BuildQuery(page, true, category, search, sortBy).to + 1
  {
  }

  /** The feed's state: the cards shown, the last page read, whether the "load more"
      button is offered, and whether a fetch is in flight. */
  datatype Feed<T> = Feed(items: seq<T>, page: nat, hasMore: bool, loading: bool)

  /** The feed after the query answers. */
  function ApplyFetch<T>(f: Feed<T>, loadMore: bool, answer: Result<seq<T>>): (r: Feed<T>)
    ensures !r.loading
    ensures answer.Err? ==> r == f.(loading := false)
    ensures answer.Ok? && loadMore ==>
      r.items == f.items + answer.value && r.page == TargetPage(f.page, true)
    ensures answer.Ok? && !loadMore ==> r.items == answer.value && r.page == 0
    ensures answer.Ok? ==> (r.hasMore <==> |answer.value| == ItemsPerPage)
  {
    match answer
    case Err(_) => f.(loading := false)
    case Ok(data) =>
      var items := if loadMore then f.items + data else data;
      var page := TargetPage(f.page, loadMore);
      Feed(items, page, |data| == ItemsPerPage, false)
  }

  /** Every page read so far was full whenever more are offered. */
  predicate Aligned<T>(f: Feed<T>) {
    f.hasMore ==> |f.items| == (f.page + 1) * ItemsPerPage
  }

  /** A fresh fetch aligns the feed; a load more, offered only while `hasMore` holds,
      keeps it aligned; a failed fetch changes nothing. */
  lemma ApplyFetchKeepsAligned<T>(f: Feed<T>, loadMore: bool, answer: Result<seq<T>>)
    requires loadMore ==> Aligned(f) && f.hasMore
    requires answer.Err? ==> Aligned(f)
    ensures Aligned(ApplyFetch(f, loadMore, answer))
  {
  }

  /** On an aligned feed the next page starts exactly after the cards already shown, so
      loading more neither skips nor repeats a row of an unchanged result set. */
  lemma NextPageStartsAfterShown<T>(f: Feed<T>, category: string, search: string,
                                    sortBy: string)
    requires Aligned(f) && f.hasMore
    ensures BuildQuery(f.page, true, category, search, sortBy).from == |f.items|
  {
  }
}

=== FILE: messages.dfy ===
/** The message row of the chat store and the per-participant rules read off it. */
module Messages {
  import opened Common

  type UserId = string
  type ItemId = string

  /** A row id.  An optimistic entry carries the sender's clock reading (a JavaScript
      number); a stored row carries an opaque, non-numeric server token (a UUID).  The
      source tells the two apart with `typeof id === "number"`, which is sound only
      because stored ids are never numbers. */
  datatype MsgId = Temp(stamp: nat) | Server(token: string)

  /** One row of the `messages` table.  `createdAt` is a millisecond timestamp; an
      optimistic entry, which has no `read` or deletion flags, carries `false` for them. */
  datatype Message = Message(
    id: MsgId,
    itemId: ItemId,
    senderId: UserId,
    receiverId: UserId,
    body: string,
    imageUrl: Option<string>,
    createdAt: nat,
    read: bool,
    deletedBySender: bool,
    deletedByReceiver: bool)

  /** The payload of an insert into `messages`; the server fills in the rest. */
  datatype NewRow = NewRow(senderId: UserId, receiverId: UserId, itemId: ItemId,
                           body: string, imageUrl: Option<string>)

  /** A conversation, from one user's side: the listing and the other participant. */
  datatype ConvKey = ConvKey(itemId: ItemId, partner: UserId)

  /** The open conversation: its key, from the signed-in user's side, and the partner's
      display name ("" until known). */
  datatype Active = Active(key: ConvKey, partnerName: string)

  predicate Involves(m: Message, u: UserId) {
    m.senderId == u || m.receiverId == u
  }

  /** The row belongs to the conversation between `u` and `other`, in either direction. */
  predicate InPair(m: Message, u: UserId, other: UserId) {
    (m.senderId == u && m.receiverId == other) || (m.senderId == other && m.receiverId == u)
  }

  function PartnerOf(m: Message, u: UserId): UserId {
    if m.senderId == u then m.receiverId else m.senderId
  }

  function KeyFor(m: Message, u: UserId): ConvKey {
    ConvKey(m.itemId, PartnerOf(m, u))
  }

  /** The inbox's flag rule: a user who sent the row consults `deleted_by_sender`,
      anybody else `deleted_by_receiver`. */
  predicate VisibleTo(m: Message, u: UserId) {
    if m.senderId == u then !m.deletedBySender else !m.deletedByReceiver
  }

  /** The open conversation's flag rule, which also lets through rows not involving `u`. */
  predicate ThreadVisible(m: Message, u: UserId) {
    if m.senderId == u then !m.deletedBySender
    else if m.receiverId == u then !m.deletedByReceiver
    else true
  }

  /** Both screens apply the same rule to every row the user takes part in, and for a
      row between two different users that rule is the data model's: the sender sees it
      unless the sender deleted it, the receiver unless the receiver deleted it. */
  lemma FlagRulesAgree(m: Message, u: UserId)
    requires Involves(m, u)
    ensures ThreadVisible(m, u) == VisibleTo(m, u)
    ensures m.senderId != m.receiverId ==>
      (VisibleTo(m, u) <==>
        (u == m.senderId && !m.deletedBySender) || (u == m.receiverId && !m.deletedByReceiver))
  {
  }

  /** A deletion flag written by one participant never changes what the other sees. */
  lemma OtherSideFlagIsIrrelevant(m: Message, u: UserId)
    requires Involves(m, u)
    ensures m.senderId == u && m.receiverId != u ==>
      VisibleTo(m.(deletedByReceiver := true), u) == VisibleTo(m, u)
    ensures m.senderId != u ==> VisibleTo(m.(deletedBySender := true), u) == VisibleTo(m, u)
  {
  }

  /** The store's batched read update, `update({read: true}).in("id", ids)`, on one row. */
  function MarkRead(m: Message, ids: set<MsgId>): (r: Message)
    ensures r.read == (m.read || m.id in ids)
    ensures r.(read := m.read) == m
  {
    if m.id in ids then m.(read := true) else m
  }

  /** `update({deleted_by_sender: true}).match({item_id, sender_id: u, receiver_id: other})`
      on one row. */
  function DeleteSent(m: Message, itemId: ItemId, u: UserId, other: UserId): (r: Message)
    ensures r.(deletedBySender := m.deletedBySender) == m
    ensures r.deletedBySender <==>
      m.deletedBySender || (m.itemId == itemId && m.senderId == u && m.receiverId == other)
  {
    if m.itemId == itemId && m.senderId == u && m.receiverId == other
    then m.(deletedBySender := true) else m
  }

  /** `update({deleted_by_receiver: true}).match({item_id, sender_id: other, receiver_id: u})`
      on one row. */
  function DeleteReceived(m: Message, itemId: ItemId, other: UserId, u: UserId): (r: Message)
    ensures r.(deletedByReceiver := m.deletedByReceiver) == m
    ensures r.deletedByReceiver <==>
      m.deletedByReceiver || (m.itemId == itemId && m.senderId == other && m.receiverId == u)
  {
    if m.itemId == itemId && m.senderId == other && m.receiverId == u
    then m.(deletedByReceiver := true) else m
  }

  /** The ids of a message list, in order. */
  function Ids(ms: seq<Message>): (r: seq<MsgId>)
    ensures |r| == |ms|
    ensures forall j :: 0 <= j < |ms| ==> r[j] == ms[j].id
  {
    seq(|ms|, j requires 0 <= j < |ms| => ms[j].id)
  }

  /** No two entries of the list share an id. */
  predicate DistinctIds(ms: seq<Message>) {
    forall i, j :: 0 <= i < j < |ms| ==> ms[i].id != ms[j].id
  }
}

=== FILE: read_tracking.dfy ===
/** Opening a conversation: its badge is cleared at once, the thread is fetched and
    filtered by the user's deletion flags, and the partner's unread rows are marked
    read in one batch. */
module ReadTracking {
  import opened Common
  import opened Messages
  import opened ReplyCodec
  import opened Inbox

  /** The list update run when a conversation opens, and again when its batch mark-read
      succeeds: only that conversation's badge changes, and it becomes zero. */
  function ClearBadge(convs: seq<Conversation>, key: ConvKey): (r: seq<Conversation>)
    ensures |r| == |convs|
    ensures forall j :: 0 <= j < |r| ==> r[j].(unreadCount := convs[j].unreadCount) == convs[j]
    ensures forall j :: 0 <= j < |r| ==>
      r[j].unreadCount == if Key(convs[j]) == key then 0 else convs[j].unreadCount
  {
    seq(|convs|, j requires 0 <= j < |convs| =>
      if Key(convs[j]) == key then convs[j].(unreadCount := 0) else convs[j])
  }

  lemma ClearBadgeIdempotent(convs: seq<Conversation>, key: ConvKey)
    ensures ClearBadge(ClearBadge(convs, key), key) == ClearBadge(convs, key)
  {
  }

  /** The thread query: rows about the listing exchanged between the user and the
      partner, in either direction, in the order the store returns them. */
  function ThreadOf(store: seq<Message>, u: UserId, key: ConvKey): (r: seq<Message>)
    ensures forall k :: 0 <= k < |r| ==>
      r[k] in store && r[k].itemId == key.itemId && InPair(r[k], u, key.partner)
    ensures forall k :: 0 <= k < |store| ==>
      (store[k].itemId == key.itemId && InPair(store[k], u, key.partner) ==> store[k] in r)
  {
    Filter(store, (m: Message) => m.itemId == key.itemId && InPair(m, u, key.partner))
  }

  /** The open view's filter, `msg => ThreadVisible(msg, u)`. */
  function VisibleFor(u: UserId): Message -> bool {
    (m: Message) => ThreadVisible(m, u)
  }

  /** The rows the open view shows: those the user has not deleted on their side, each as
      often as fetched; `OpenVisibleKeepsOrder` gives their order. */
  function OpenVisible(thread: seq<Message>, u: UserId): (r: seq<Message>)
    ensures forall k :: 0 <= k < |r| ==> r[k] in thread && ThreadVisible(r[k], u)
    ensures forall k :: 0 <= k < |thread| && ThreadVisible(thread[k], u) ==> thread[k] in r
    ensures forall m :: multiset(r)[m] == if ThreadVisible(m, u) then multiset(thread)[m] else 0
  {
    var r := Filter(thread, VisibleFor(u));
    assert forall m :: multiset(r)[m] == if ThreadVisible(m, u) then multiset(thread)[m] else 0 by {
      forall m
        ensures multiset(r)[m] == if ThreadVisible(m, u) then multiset(thread)[m] else 0
      {
        FilterCount(thread, VisibleFor(u), m);
      }
    }
    r
  }

  /** The shown thread keeps the fetched order: each row stays where it was relative to
      the rows around it, or is dropped. */
  lemma OpenVisibleKeepsOrder(xs: seq<Message>, m: Message, ys: seq<Message>, u: UserId)
    ensures OpenVisible(xs + [m] + ys, u)
         == OpenVisible(xs, u) + (if ThreadVisible(m, u) then [m] else []) + OpenVisible(ys, u)
  {
    FilterConcat(xs + [m], ys, VisibleFor(u));
    FilterConcat(xs, [m], VisibleFor(u));
    FilterSingle(m, VisibleFor(u));
  }

  /** A thread the user has deleted nothing of is shown exactly as fetched. */
  lemma OpenVisibleShowsWholeThread(thread: seq<Message>, u: UserId)
    requires forall k :: 0 <= k < |thread| ==> ThreadVisible(thread[k], u)
    ensures OpenVisible(thread, u) == thread
  {
    FilterKeepsAll(thread, VisibleFor(u));
  }

  /** The batch to mark read: the ids of shown rows sent to the user and still unread. */
  function UnreadIds(shown: seq<Message>, u: UserId): (ids: seq<MsgId>)
    ensures forall k :: 0 <= k < |ids| ==>
      exists i :: 0 <= i < |shown| && shown[i].id == ids[k] && shown[i].receiverId == u
                  && !shown[i].read
    ensures forall i :: 0 <= i < |shown| && shown[i].receiverId == u && !shown[i].read ==>
      shown[i].id in ids
  {
    var unread := Filter(shown, (m: Message) => m.receiverId == u && !m.read);
    var ids := Ids(unread);
    forall k | 0 <= k < |ids|
      ensures exists i :: 0 <= i < |shown| && shown[i].id == ids[k] && shown[i].receiverId == u
                          && !shown[i].read
    {
      var i :| 0 <= i < |shown| && shown[i] == unread[k];
    }
    forall i | 0 <= i < |shown| && shown[i].receiverId == u && !shown[i].read
      ensures shown[i].id in ids
    {
      var k :| 0 <= k < |unread| && unread[k] == shown[i];
      assert ids[k] == shown[i].id;
    }
    ids
  }

  /** What opening a conversation leaves behind: the list, the shown thread, and the
      batch mark-read it issues, if any. */
  datatype Opened = Opened(convs: seq<Conversation>, messages: seq<Message>,
                           markRead: Option<seq<MsgId>>)

  /** The open effect, given the list, the rows shown so far and the thread query's
      answer (whose data may be missing). */
  function OpenConversation(convs: seq<Conversation>, messages: seq<Message>, active: Active,
                            u: UserId, fetched: Result<Option<seq<Message>>>): (r: Opened)
    ensures r.convs == ClearBadge(convs, active.key)
    ensures fetched.Err? ==> r.messages == messages && r.markRead.None?
    ensures fetched.Ok? && fetched.value.None? ==> r.messages == [] && r.markRead.None?
    ensures fetched.Ok? && fetched.value.Some? ==>
      r.messages == OpenVisible(fetched.value.value, u)
    ensures r.markRead.Some? ==>
      |r.markRead.value| > 0 && r.markRead.value == UnreadIds(r.messages, u)
    ensures fetched.Ok? && r.markRead.None? ==> UnreadIds(r.messages, u) == []
  {
    var convs' := ClearBadge(convs, active.key);
    match fetched
    case Err(_) => Opened(convs', messages, None)
    case Ok(data) =>
      var rows := match data case Some(rows) => rows case None => [];
      var shown := OpenVisible(rows, u);
      var ids := UnreadIds(shown, u);
      Opened(convs', shown, if |ids| > 0 then Some(ids) else None)
  }

  /** The list after the batch mark-read answers, and whether the navigation bar is told
      to recount. */
  datatype Settled = Settled(convs: seq<Conversation>, notify: bool)

  function AfterMarkRead(convs: seq<Conversation>, key: ConvKey, outcome: Outcome): (r: Settled)
    ensures outcome.Done? ==> r == Settled(ClearBadge(convs, key), true)
    ensures outcome.Failed? ==> r == Settled(convs, false)
  {
    match outcome
    case Done => Settled(ClearBadge(convs, key), true)
    case Failed(_) => Settled(convs, false)
  }

  /** The messages of an inbox log, in order. */
  function Msgs(log: seq<InboxRow>): (r: seq<Message>)
    ensures |r| == |log| && forall i :: 0 <= i < |log| ==> r[i] == log[i].msg
  {
    seq(|log|, i requires 0 <= i < |log| => log[i].msg)
  }

  /** The batch update applied to the store, seen through the inbox log. */
  function MarkRows(log: seq<InboxRow>, ids: set<MsgId>): (r: seq<InboxRow>)
    ensures |r| == |log|
    ensures forall i :: 0 <= i < |log| ==>
      r[i].join == log[i].join && r[i].msg == MarkRead(log[i].msg, ids)
  {
    seq(|log|, i requires 0 <= i < |log| => InboxRow(MarkRead(log[i].msg, ids), log[i].join))
  }

  /** The rows the batch of conversation `key` marks: the partner's shown unread rows. */
  predicate Marked(m: Message, u: UserId, key: ConvKey) {
    m.itemId == key.itemId && InPair(m, u, key.partner) && ThreadVisible(m, u)
    && m.receiverId == u && !m.read
  }

  /** The batch of conversation `key` read off `store`. */
  function Batch(store: seq<Message>, u: UserId, key: ConvKey): seq<MsgId> {
    UnreadIds(OpenVisible(ThreadOf(store, u, key), u), u)
  }

  /** `.in("id", ids)` matches any row whose id is listed. */
  function BatchSet(store: seq<Message>, u: UserId, key: ConvKey): set<MsgId> {
    set id | id in Batch(store, u, key)
  }

  lemma MarkedRowInBatch(store: seq<Message>, u: UserId, key: ConvKey, i: nat)
    requires i < |store| && Marked(store[i], u, key)
    ensures store[i].id in Batch(store, u, key)
  {
    var thread := ThreadOf(store, u, key);
    var shown := OpenVisible(thread, u);
    var t :| 0 <= t < |thread| && thread[t] == store[i];
    var s :| 0 <= s < |shown| && shown[s] == store[i];
  }

  /** With ids unique, a row's id is in the batch exactly when the row is one it marks. */
  lemma BatchPicksMarkedRows(store: seq<Message>, u: UserId, key: ConvKey, i: nat)
    requires DistinctIds(store)
    requires i < |store|
    ensures store[i].id in Batch(store, u, key) <==> Marked(store[i], u, key)
  {
    if Marked(store[i], u, key) {
      MarkedRowInBatch(store, u, key, i);
    }
    if store[i].id in Batch(store, u, key) {
      var thread := ThreadOf(store, u, key);
      var shown := OpenVisible(thread, u);
      var ids := UnreadIds(shown, u);
      var k :| 0 <= k < |ids| && ids[k] == store[i].id;
      var s :| 0 <= s < |shown| && shown[s].id == ids[k] && shown[s].receiverId == u
               && !shown[s].read;
      var m := shown[s];
      assert m in thread && ThreadVisible(m, u);
      assert m in store && m.itemId == key.itemId && InPair(m, u, key.partner);
      var j :| 0 <= j < |store| && store[j] == m;
      assert j == i;
    }
  }

  /** A row the partner sent that counts towards the badge is one the batch marks. */
  lemma BadgeRowIsMarked(m: Message, v: Viewer, key: ConvKey)
    requires Involves(m, v.self)
    requires CountsUnread(m, v, key)
    ensures Marked(m, v.self, key)
  {
  }

  /** Every row the batch marks belongs to the opened conversation. */
  lemma MarkedRowIsInConversation(m: Message, u: UserId, key: ConvKey)
    requires Marked(m, u, key)
    ensures KeyFor(m, u) == key
  {
  }

  /** Marking rows read changes no opening and no preview. */
  lemma MarkRowsKeepsOpenings(log: seq<InboxRow>, ids: set<MsgId>, v: Viewer, parse: JsonParser)
    ensures SameOpenings(log, MarkRows(log, ids), v, parse)
  {
  }

  /** After the batch, no row counts towards the opened conversation's badge. */
  lemma BatchClearsBadge(log: seq<InboxRow>, v: Viewer, key: ConvKey)
    requires forall i :: 0 <= i < |log| ==> Involves(log[i].msg, v.self)
    requires DistinctIds(Msgs(log))
    ensures var log' := MarkRows(log, BatchSet(Msgs(log), v.self, key));
      UnreadIn(log', |log'|, key, v) == 0
  {
    var batch := BatchSet(Msgs(log), v.self, key);
    var log' := MarkRows(log, batch);
    forall i | 0 <= i < |log|
      ensures !CountsUnread(log'[i].msg, v, key)
    {
      if CountsUnread(log[i].msg, v, key) {
        BadgeRowIsMarked(log[i].msg, v, key);
        MarkedRowInBatch(Msgs(log), v.self, key, i);
      }
    }
    UnreadNone(log', v, |log'|, key);
  }

  /** The batch leaves every other conversation's badge as it was. */
  lemma BatchKeepsOtherBadges(log: seq<InboxRow>, v: Viewer, key: ConvKey, k: ConvKey)
    requires DistinctIds(Msgs(log))
    requires k != key
    ensures var log' := MarkRows(log, BatchSet(Msgs(log), v.self, key));
      UnreadIn(log', |log'|, k, v) == UnreadIn(log, |log|, k, v)
  {
    var log' := MarkRows(log, BatchSet(Msgs(log), v.self, key));
    forall i | 0 <= i < |log|
      ensures CountsUnread(log'[i].msg, v, k) == CountsUnread(log[i].msg, v, k)
    {
      BatchPicksMarkedRows(Msgs(log), v.self, key, i);
      if Marked(log[i].msg, v.self, key) {
        MarkedRowIsInConversation(log[i].msg, v.self, key);
      }
    }
    UnreadAgree(log, log', v, |log|, k);
  }

  /** Recomputing the conversation list after the batch mark-read gives the list as it was
      with only the opened conversation's badge cleared: the client's local update agrees
      with the store. */
  lemma MarkReadMatchesRecount(log: seq<InboxRow>, v: Viewer, parse: JsonParser, key: ConvKey)
    requires forall i :: 0 <= i < |log| ==> Involves(log[i].msg, v.self)
    requires DistinctIds(Msgs(log))
    ensures Summaries(MarkRows(log, BatchSet(Msgs(log), v.self, key)), v, parse)
         == ClearBadge(Summaries(log, v, parse), key)
  {
    var log' := MarkRows(log, BatchSet(Msgs(log), v.self, key));
    MarkRowsKeepsOpenings(log, BatchSet(Msgs(log), v.self, key), v, parse);
    SummariesAgreeButBadges(log, log', v, parse);
    BatchClearsBadge(log, v, key);
    var s := Summaries(log, v, parse);
    forall j | 0 <= j < |s| && Key(s[j]) != key
      ensures UnreadIn(log', |log'|, Key(s[j]), v) == UnreadIn(log, |log|, Key(s[j]), v)
    {
      BatchKeepsOtherBadges(log, v, key, Key(s[j]));
    }
  }
}

=== FILE: reply_codec.dfy ===
/** The reply annotation carried inside a message body:
      `:::REPLY` + JSON of the quoted message + `:::` + the text the sender typed.
    The JSON parser is a parameter: whether it accepts a string, and which kind of
    value it yields, is all the chat depends on. */
module ReplyCodec {
  import opened Common
  import opened Text
  import opened Messages

  const ReplyTag: string := ":::REPLY"
  const Delimiter: string := ":::"
  /** Quoted previews keep at most this many characters of the original... */
  const PreviewLimit: nat := 60
  /** ...and are marked with this when they were cut. */
  const Ellipsis: string := "..."

  /** The annotation object `{id, name, text, isMedia}`. */
  datatype ReplyMeta = ReplyMeta(id: MsgId, name: string, text: string, isMedia: bool)

  /** A value `JSON.parse` can return, as far as the chat tells values apart: `null`, an
      annotation object, or any other value together with its JavaScript truthiness. */
  datatype Json = Null | Annotation(meta: ReplyMeta) | Other(truthy: bool)

  /** `JSON.parse`, with a thrown exception as `None`. */
  type JsonParser = string -> Option<Json>

  /** What `parseMessage` returns: `{reply, content}`, `reply` being `null` when there is
      no frame or its JSON does not parse. */
  datatype Decoded = Decoded(reply: Json, content: string)

  /** The thread draws the quote bubble when `reply` is truthy. */
  predicate ShowsQuote(d: Decoded) {
    d.reply.Annotation? || (d.reply.Other? && d.reply.truthy)
  }

  predicate DelimiterFree(s: string) {
    forall k :: 0 <= k < |s| ==> !OccursAt(s, Delimiter, k)
  }

  /** `body` is the tag, then `json`, then the delimiter, then `text`, and the delimiter
      searched from just after the tag is the one that follows `json`.  Because the
      search also looks across the end of `json`, `json` must stay free of the delimiter
      even with the first two characters of the delimiter appended. */
  predicate IsReplyFrame(body: string, json: string, text: string) {
    body == ReplyTag + json + Delimiter + text && DelimiterFree(json + "::")
  }

  /** `parseMessage`.  Total: a body is either shown whole with a `null` reply, or it is
      a frame whose JSON part parsed, and then the frame is stripped and the parsed value,
      whatever it is, becomes the reply. */
  function Decode(body: string, parse: JsonParser): (d: Decoded)
    ensures !StartsWith(body, ReplyTag) ==> d == Decoded(Null, body)
    ensures d.content == body ==> d.reply == Null
    ensures d.content != body ==>
      && |ReplyTag| + |Delimiter| + |d.content| <= |body|
      && var json := body[|ReplyTag|..|body| - |Delimiter| - |d.content|];
         IsReplyFrame(body, json, d.content) && parse(json) == Some(d.reply)
  {
    if StartsWith(body, ReplyTag) then
      match IndexOf(body, Delimiter, |ReplyTag|)
      case Some(end) =>
        (match parse(body[|ReplyTag|..end])
         case Some(value) =>
           FrameAt(body, end);
           Decoded(value, body[end + |Delimiter|..])
         case None => Decoded(Null, body))
      case None => Decoded(Null, body)
    else Decoded(Null, body)
  }

  /** The first delimiter after the tag splits the body into a frame. */
  lemma FrameAt(body: string, end: nat)
    requires StartsWith(body, ReplyTag)
    requires IndexOf(body, Delimiter, |ReplyTag|) == Some(end)
    ensures var json := body[|ReplyTag|..end];
      IsReplyFrame(body, json, body[end + |Delimiter|..])
  {
    var json := body[|ReplyTag|..end];
    var text := body[end + |Delimiter|..];
    assert body == ReplyTag + json + Delimiter + text by {
      assert body == body[..|ReplyTag|] + body[|ReplyTag|..end] + body[end..end + 3] + text;
    }
    forall k | 0 <= k < |json + "::"|
      ensures !OccursAt(json + "::", Delimiter, k)
    {
      if OccursAt(json + "::", Delimiter, k) {
        ShiftOccurrence(json, text, k);
      }
    }
  }

  /** Inside the JSON part and the two characters after it, an occurrence in
      `json + "::"` is an occurrence in the framed body, eight places on, and back. */
  lemma ShiftOccurrence(json: string, text: string, k: nat)
    requires k + |Delimiter| <= |json| + 2
    ensures OccursAt(json + "::", Delimiter, k)
        <==> OccursAt(ReplyTag + json + Delimiter + text, Delimiter, |ReplyTag| + k)
  {
    var body := ReplyTag + json + Delimiter + text;
    var tail := json + Delimiter + text;
    assert body == ReplyTag + tail;
    assert body[|ReplyTag|..] == tail;
    assert json + "::" == tail[..|json| + 2];
    assert (json + "::")[k..k + 3] == tail[k..k + 3];
    assert tail[k..k + 3] == body[|ReplyTag| + k..|ReplyTag| + k + 3];
  }

  /** In a frame, the delimiter search from just after the tag stops right after the JSON
      part. */
  lemma {:induction false} FrameEnd(body: string, json: string, text: string)
    requires IsReplyFrame(body, json, text)
    ensures StartsWith(body, ReplyTag)
    ensures IndexOf(body, Delimiter, |ReplyTag|) == Some(|ReplyTag| + |json|)
    ensures body[|ReplyTag|..|ReplyTag| + |json|] == json
    ensures body[|ReplyTag| + |json| + |Delimiter|..] == text
  {
    var end := |ReplyTag| + |json|;
    assert body[..|ReplyTag|] == ReplyTag;
    assert body[|ReplyTag|..end] == json;
    assert body[end..end + 3] == Delimiter;
    assert body[end + 3..] == text;
    var r := IndexOf(body, Delimiter, |ReplyTag|);
    assert OccursAt(body, Delimiter, end);
    assert r.Some?;
    if r.value < end {
      ShiftOccurrence(json, text, r.value - |ReplyTag|);
      assert false;
    }
  }

  /** Round trip: a frame whose JSON part parses decodes to exactly the parsed value and
      exactly the typed text.  This includes `:::REPLYnull:::hi`, shown as "hi" without a
      quote bubble. */
  lemma {:induction false} DecodeFrame(body: string, json: string, text: string,
                                       parse: JsonParser, value: Json)
    requires IsReplyFrame(body, json, text)
    requires parse(json) == Some(value)
    ensures Decode(body, parse) == Decoded(value, text)
  {
    FrameEnd(body, json, text);
  }

  /** A parsed frame always shows just the typed text, and the quote bubble appears
      exactly when the parsed value is truthy. */
  lemma FrameShowsQuoteIffTruthy(body: string, json: string, text: string,
                                 parse: JsonParser, value: Json)
    requires IsReplyFrame(body, json, text)
    requires parse(json) == Some(value)
    ensures Decode(body, parse).content == text
    ensures ShowsQuote(Decode(body, parse)) <==> value.Annotation? || (value.Other? && value.truthy)
  {
    DecodeFrame(body, json, text, parse, value);
  }

  /** `:::REPLYnull:::hi`: the frame is stripped although no annotation was read, so "hi"
      is shown, without a quote bubble. */
  lemma NullReplyShowsPlainText(text: string, parse: JsonParser)
    requires parse("null") == Some(Null)
    ensures var d := Decode(ReplyTag + "null" + Delimiter + text, parse);
      d == Decoded(Null, text) && !ShowsQuote(d)
  {
    var json := "null::";
    forall k | 0 <= k < |json|
      ensures !OccursAt(json, Delimiter, k)
    {
      if k + 3 <= |json| {
        assert json[k..k + 3][0] == json[k] && json[k..k + 3][1] == json[k + 1];
        assert json[k..k + 3][2] == json[k + 2];
      }
    }
    assert json == "null" + "::";
    DecodeFrame(ReplyTag + "null" + Delimiter + text, "null", text, parse, Null);
  }

  /** A frame whose JSON part does not parse is shown whole. */
  lemma {:induction false} DecodeFrameRejected(body: string, json: string, text: string,
                                               parse: JsonParser)
    requires IsReplyFrame(body, json, text)
    requires parse(json).None?
    ensures Decode(body, parse) == Decoded(Null, body)
  {
    FrameEnd(body, json, text);
  }

  /** The send handler's framing: the tag, the annotation JSON, the delimiter, then the
      typed text. */
  function EncodeReply(json: string, typed: string): (body: string)
    ensures StartsWith(body, ReplyTag) && EndsWith(body, typed)
    ensures |body| == |ReplyTag| + |json| + |Delimiter| + |typed|
    ensures body[|ReplyTag|..|body| - |Delimiter| - |typed|] == json
  {
    var body := ReplyTag + json + Delimiter + typed;
    assert body[..|ReplyTag|] == ReplyTag;
    assert body[|ReplyTag|..|body| - |Delimiter| - |typed|] == json;
    assert body[|body| - |typed|..] == typed;
    body
  }

  /** The display text of a reply is the text the sender typed, whatever the quote,
      provided the parser inverts the serialised annotation and that serialisation
      leaves the frame's delimiter search undisturbed. */
  lemma {:induction false} ReplyRoundTrip(json: string, typed: string, parse: JsonParser,
                                          meta: ReplyMeta)
    requires DelimiterFree(json + "::")
    requires parse(json) == Some(Annotation(meta))
    ensures Decode(EncodeReply(json, typed), parse) == Decoded(Annotation(meta), typed)
  {
    DecodeFrame(EncodeReply(json, typed), json, typed, parse, Annotation(meta));
  }

  /** A delimiter inside the JSON part ends the search early: the parser then sees a
      proper prefix of the JSON, and any JSON parser rejects a proper prefix of an object
      text.  The body is shown raw. */
  lemma {:induction false} DelimiterInsideJsonFailsOpen(json: string, typed: string,
                                                        parse: JsonParser, k: nat)
    requires OccursAt(json, Delimiter, k)
    requires forall p :: p < json ==> parse(p).None?
    ensures Decode(EncodeReply(json, typed), parse) == Decoded(Null, EncodeReply(json, typed))
  {
    var body := EncodeReply(json, typed);
    assert body[..|ReplyTag|] == ReplyTag;
    var at := |ReplyTag| + k;
    assert OccursAt(json + "::", Delimiter, k) by {
      assert (json + "::")[..|json|] == json;
    }
    ShiftOccurrence(json, typed, k);
    assert OccursAt(body, Delimiter, at);
    var r := IndexOf(body, Delimiter, |ReplyTag|);
    assert r.Some? && r.value <= at;
    var prefix := body[|ReplyTag|..r.value];
    assert prefix < json by {
      assert body[|ReplyTag|..|ReplyTag| + |json|] == json;
      assert prefix == json[..r.value - |ReplyTag|];
    }
  }

  /** `originalContent.substring(0, 60) + (originalContent.length > 60 ? "..." : "")` */
  function Preview(content: string): (q: string)
    ensures |content| <= PreviewLimit ==> q == content
    ensures |content| > PreviewLimit ==>
      |q| == PreviewLimit + |Ellipsis| && q[..PreviewLimit] == content[..PreviewLimit]
      && q[PreviewLimit..] == Ellipsis
    ensures |q| <= PreviewLimit + |Ellipsis|
  {
    var cut := if |content| < PreviewLimit then |content| else PreviewLimit;
    content[..cut] + (if |content| > PreviewLimit then Ellipsis else "")
  }

  /** The annotation built when replying to `original` in a conversation whose partner
      is shown as `partnerName` ("" when unknown).  The quote is taken from the
      original's decoded content, so an annotation is never quoted inside another. */
  function ReplyMetaFor(original: Message, self: UserId, partnerName: string,
                        parse: JsonParser): (meta: ReplyMeta)
    ensures meta.id == original.id
    ensures meta.isMedia <==> original.imageUrl.Some? && original.imageUrl.value != ""
    ensures original.senderId == self ==> meta.name == "You"
    ensures original.senderId != self && partnerName != "" ==> meta.name == partnerName
    ensures original.senderId != self && partnerName == "" ==> meta.name == "User"
    ensures meta.text == Preview(Decode(original.body, parse).content)
  {
    ReplyMeta(
      original.id,
      if original.senderId == self then "You"
      else if partnerName != "" then partnerName else "User",
      Preview(Decode(original.body, parse).content),
      match original.imageUrl case Some(url) => url != "" case None => false)
  }

  /** Replying to a reply quotes only what its sender typed, never its annotation. */
  lemma {:induction false} QuoteSkipsNestedAnnotation(
      original: Message, self: UserId, partnerName: string, parse: JsonParser,
      json: string, text: string, inner: Json)
    requires IsReplyFrame(original.body, json, text)
    requires parse(json) == Some(inner)
    ensures ReplyMetaFor(original, self, partnerName, parse).text == Preview(text)
  {
    DecodeFrame(original.body, json, text, parse, inner);
  }
}

=== FILE: text.dfy ===
/** The few JavaScript string operations the model needs, stated over `seq<char>`. */
module Text {
  import opened Common

  /** `s.startsWith(prefix)` */
  predicate StartsWith(s: string, prefix: string) {
    |prefix| <= |s| && s[..|prefix|] == prefix
  }

  /** `s.endsWith(suffix)` */
  predicate EndsWith(s: string, suffix: string) {
    |suffix| <= |s| && s[|s| - |suffix|..] == suffix
  }

  /** `pat` occurs in `s` starting at index `k`. */
  predicate OccursAt(s: string, pat: string, k: nat) {
    k + |pat| <= |s| && s[k..k + |pat|] == pat
  }

  /** `pat` occurs somewhere in `s`. */
  ghost predicate Occurs(s: string, pat: string) {
    exists k: nat :: OccursAt(s, pat, k)
  }

  /** An occurrence in either part is an occurrence in the concatenation. */
  lemma OccursInConcat(a: string, b: string, pat: string)
    ensures Occurs(a, pat) || Occurs(b, pat) ==> Occurs(a + b, pat)
  {
    if k: nat :| OccursAt(a, pat, k) {
      assert (a + b)[k..k + |pat|] == a[k..k + |pat|];
      assert OccursAt(a + b, pat, k);
    } else if k: nat :| OccursAt(b, pat, k) {
      assert (a + b)[|a| + k..|a| + k + |pat|] == b[k..k + |pat|];
      assert OccursAt(a + b, pat, |a| + k);
    }
  }

  lemma OccursBetween(a: string, pat: string, b: string)
    ensures Occurs(a + pat + b, pat)
  {
    assert OccursAt(pat, pat, 0);
    OccursInConcat(a, pat, pat);
    OccursInConcat(a + pat, b, pat);
  }

  /** `s.indexOf(pat, from)` for a non-empty pattern: the first occurrence at or after
      `from`, or `None` where JavaScript answers -1. */
  function IndexOf(s: string, pat: string, from: nat): (r: Option<nat>)
    requires |pat| > 0
    ensures r.Some? ==> from <= r.value && OccursAt(s, pat, r.value)
    ensures forall k: nat :: from <= k && (r.None? || k < r.value) ==> !OccursAt(s, pat, k)
    decreases |s| - from
  {
    if |s| < from + |pat| then None
    else if s[from..from + |pat|] == pat then Some(from)
    else IndexOf(s, pat, from + 1)
  }

  /** `s.includes(pat)` for a non-empty pattern. */
  predicate Contains(s: string, pat: string)
    requires |pat| > 0
  {
    IndexOf(s, pat, 0).Some?
  }

  /** What `s.split(sep).pop()` returns: everything after the last separator, or the
      whole string when there is none. */
  function AfterLast(s: string, sep: char): (r: string)
    ensures sep !in r
    ensures |r| <= |s| && s[|s| - |r|..] == r
    ensures |r| < |s| ==> s[|s| - |r| - 1] == sep
  {
    if |s| == 0 || s[|s| - 1] == sep then ""
    else AfterLast(s[..|s| - 1], sep) + [s[|s| - 1]]
  }

  /** A suffix of a suffix is a suffix. */
  lemma EndsWithTransitive(s: string, t: string, u: string)
    requires EndsWith(s, t) && EndsWith(t, u)
    ensures EndsWith(s, u)
  {
    assert s[|s| - |u|..] == s[|s| - |t|..][|t| - |u|..];
  }

  /** What follows the last separator is exactly the separator-free tail. */
  lemma {:induction false} AfterLastTail(head: string, sep: char, tail: string)
    requires sep !in tail
    ensures AfterLast(head + [sep] + tail, sep) == tail
  {
    var s := head + [sep] + tail;
    if |tail| > 0 {
      var t := tail[..|tail| - 1];
      assert s[..|s| - 1] == head + [sep] + t;
      assert s[|s| - 1] == tail[|tail| - 1];
      AfterLastTail(head, sep, t);
      assert t + [tail[|tail| - 1]] == tail;
    }
  }

  /** The characters `String.prototype.trim` removes: ECMAScript WhiteSpace and
      LineTerminator. */
  const JsWhitespace: string :=
    "\t\n\U{B}\U{C}\r \U{A0}\U{1680}\U{2000}\U{2001}\U{2002}\U{2003}\U{2004}\U{2005}"
    + "\U{2006}\U{2007}\U{2008}\U{2009}\U{200A}\U{2028}\U{2029}\U{202F}\U{205F}\U{3000}\U{FEFF}"

  /** `s.trim() === ""` */
  predicate IsBlank(s: string) {
    forall i :: 0 <= i < |s| ==> s[i] in JsWhitespace
  }
}
